=== FILE: README.md ===
# tce-player-demo: a Dafny model of the player bootstrap and the cookie pipeline

The demo app has a React front end. It fetches a client id, then an access
token, then a playlist of assets, and embeds a third-party learning-content
player (the `tce-player` web component, driven through an Angular bridge).
A FastAPI backend proxies those requests. This project models the three
parts of it that are sequential logic and proves what they promise.

- **The player component** (`TCEPlayer.tsx`) is a pure state machine over a
  `World`. The world records:
  - the document head, as a sequence of script, link and other nodes;
  - the player container;
  - the ids the widget has registered;
  - the two refs: the stored player id and the initialized flag;
  - the stored subscription;
  - a trace of every call made into the widget's bridge: token, config,
    subscribe, init and unsubscribe.

  Transitions (`Player.Step`):
  - the one-off resource load, followed by the mount effect;
  - a re-render with new props, which runs cleanup and then mounts again;
  - the `loadplayer` handler;
  - the subscription's `next` and `error` callbacks.

  The invariant `Player.Inv` holds in every reachable world. It covers:
  - no duplicate head nodes;
  - exactly one listening element while mounted;
  - subscriptions named by their trace position;
  - a trace made of whole four-call configure blocks and single unsubscribes.
- **The application shell** (`App.tsx`):
  - the fetch chain as events on an `AppState`, with its gating;
  - the cookie strings written by `setCookiesInBrowser`;
  - the `expiryTime` expression, including its operator-precedence reading;
  - the render conditions and the selected-asset highlight.
- **The cookie policy** (`config.py`): `is_production`, `cookie_config` and
  `cors_origins` as pure functions of the settings. The backend merges each
  cookie's value into the policy (`main.py`), the front end decodes the
  record, and the record is serialised. That chain is proved end to end
  (`Cookies.PolicyReachesBrowser`).

JavaScript numbers that matter are modelled as `JsNum`, which is an integer
or `NaN`. `parseInt` is modelled as an optional sign followed by the longest
decimal-digit prefix (`JsNumbers.ParseInt`). Python dicts are maps from
strings to `PyValue`. `dict.update` is map union with the right-hand side
winning.

Files:

| file | module | contents |
|---|---|---|
| options.dfy | `Options` | `Option<T>` |
| jsnum.dfy | `JsNumbers` | `JsNum` values, decimal rendering, `parseInt` |
| config.dfy | `Config` | settings, `is_production`, `cookie_config`, `cors_origins` |
| entities.dfy | `Entities` | the cookie, client, token and asset records |
| cookies.dfy | `Cookies` | the policy merge, the record codec, the cookie-string builder and its parser |
| resources.dfy | `Resources` | `loadScript`, `loadStyle`, the sequential resource load |
| player.dfy | `Player` | the component's world, handler, mount, cleanup, `Step`, and `Inv` |
| lifecycle.dfy | `Lifecycle` | multi-step properties of the component |
| app.dfy | `App` | the shell's state machine, `expiryTime`, rendering, highlight |

## Behaviour worth knowing

- **A change of props remounts the player; nothing reconfigures it in
  place.** A change to any of `accessToken`, `expiresIn`, `expiryTime` or
  `asset` rebuilds `handleLoadPlayer` (TCEPlayer.tsx:166). The mount effect
  depends on the handler (TCEPlayer.tsx:210), so the change tears the mount
  down and mounts again. Cleanup resets neither the stored id nor the
  initialized flag. So when the new element announces the same id and the
  flag is set, the handler skips, and the new token and asset never reach
  the bridge (`Lifecycle.NewPropsNotDeliveredOnSameId`).
- **The initialized flag is shared by every player.** `isPlayerInitializedRef`
  is one flag (TCEPlayer.tsx:26). Any live subscription's `next` sets it
  (TCEPlayer.tsx:151), and nothing resets it. Once one player's `next` has
  set it, a `loadplayer` for a second id configures that player once;
  a repeated event for the second id is then skipped, although its own
  `next` never fired (`Lifecycle.SharedInitializedFlag`).
- **The same subscription can be unsubscribed twice.** The subscription is
  stored on the widget's registry entry (TCEPlayer.tsx:160), and cleanup
  does not clear it. Two cleanups with no handled `loadplayer` in between
  therefore unsubscribe it twice
  (`Lifecycle.RepeatedCleanupUnsubscribesAgain`).
- **The token stamp is not added to the timeout.** `token?.tstamp || 0 +
  parseInt(…)` parses as `tstamp || (0 + parseInt(…))` (App.tsx:182-183).
  The client timeout is a fallback, never an addend
  (`App.ExpiryNeverAddsTimeout`).
- **The lookup for an existing node ignores its load state.** A second
  request for a URL whose first load is pending, or has failed, resolves at
  once (TCEPlayer.tsx:30-33; `Resources.RepeatedScriptRequestResolves`).
- **Cookies are written in the key order the backend produced.**
  `Object.entries` follows the JSON object's key order (App.tsx:71), which
  is the order of the backend's dict comprehension (main.py:61-64). So
  `ctoken` may be written before `JSESSIONID` (`Cookies.RecordWrites`).

## Model

| member | source | states |
|---|---|---|
| `JsNumbers.DigitPrefix` | frontend/src/App.tsx:183 | the digits `parseInt` reads are a prefix of the text, all decimal digits, and stop at the first non-digit |
| `JsNumbers.ParseInt` | frontend/src/App.tsx:183 | `parseInt` gives NaN iff no digit follows the optional sign; otherwise its magnitude is the value of the longest digit run after the sign, negative only after a minus sign |
| `JsNumbers.DigitsValueOfDecimal` | frontend/src/App.tsx:183 | reading the decimal digits of a natural number gives back that number |
| `JsNumbers.ParseIntOfDigits` | frontend/src/App.tsx:183 | `parseInt` of a run of digits followed by anything not starting with a digit is the value of the run |
| `JsNumbers.ParseIntOfNegativeDigits` | frontend/src/App.tsx:183 | the same with a leading minus sign gives the negated value |
| `JsNumbers.ParseIntOfDecimal` | frontend/src/App.tsx:183 | `parseInt` of the decimal rendering of any integer, followed by anything not starting with a digit, gives back that integer |
| `Config.Update` | backend/app/config.py:37-48 | `dict.update` keeps every key of both dicts; the argument's values win and the rest keep their old values |
| `Config.CorsOrigins` | backend/app/config.py:19-26 | the four origins, whatever the environment: `localhost` and `127.0.0.1`, first on port 3000 and then on port 5173, all over `http` |
| `Config.CookiePolicy` | backend/app/config.py:28-51 | exactly the keys `httponly`, `max_age`, `secure` and `samesite`; `httponly` is always true, `max_age` is 3600 and `samesite` is `"lax"`; `secure` equals `USE_HTTPS` in production and is false in every other environment |
| `Config.SecureNeedsExactProduction` | backend/app/config.py:15-17 | a secure cookie policy needs the environment to be exactly `"production"` and HTTPS to be on |
| `Config.OnlyExactProductionText` | backend/app/config.py:15-17 | any environment text other than exactly `"production"`, a near miss in case, abbreviation or trailing space included, is not production, and its cookies are not secure even with HTTPS on |
| `Config.CookiePolicyDiffersOnlyInSecure` | backend/app/config.py:36-49 | any two settings give policies that agree on everything except `secure` |
| `Cookies.Merge` | backend/app/main.py:61-64 | a cookie's record is the policy plus a `value` entry, with every policy entry kept |
| `Cookies.ParseSameSite` | frontend/src/App.tsx:7-13 | a recognised `samesite` text names a value that renders back to that text |
| `Cookies.Encode` | frontend/src/App.tsx:7-13 | an encoded cookie record has exactly the five keys of the record type |
| `Cookies.DecodeEncode` | frontend/src/App.tsx:7-13 | decoding an encoded cookie record gives back the record |
| `Cookies.EncodeDecode` | frontend/src/App.tsx:7-13 | a dict with exactly the record's keys that decodes re-encodes to itself |
| `Cookies.MergedPolicyDecodes` | backend/app/main.py:61-64 | the merged record for any settings decodes to `httponly`, max-age 3600, `samesite` lax, and `secure` exactly in production with HTTPS |
| `Cookies.FirstSemicolon` | frontend/src/App.tsx:72 | the position found is a `;` and no earlier character is one |
| `Cookies.FirstSemicolonAfter` | frontend/src/App.tsx:72 | after a part with no `;`, the first `;` of the string is the separator that follows the part |
| `Cookies.SplitAfterSeparator` | frontend/src/App.tsx:72 | splitting a `;`-free part, a separator and the rest gives the part followed by the split of the rest |
| `Cookies.Split` | frontend/src/App.tsx:72 | splitting a cookie string always gives at least one part |
| `Cookies.SplitJoin` | frontend/src/App.tsx:72 | joining parts that contain no `;` with `"; "` and splitting again gives back the parts |
| `Cookies.CookieString` | frontend/src/App.tsx:72-76 | the string written for one entry is the `name=value` pair followed by the attributes `path=/`, `max-age`, `samesite` and, exactly when configured, `secure`, joined with `"; "` |
| `Cookies.PairHasNoSemicolon` | frontend/src/App.tsx:72 | a name and value with no `;` give a pair with no `;` |
| `Cookies.AttributesHaveNoSemicolon` | frontend/src/App.tsx:72-76 | no attribute the builder writes contains a `;` |
| `Cookies.SplitCookieString` | frontend/src/App.tsx:72-76 | the written string splits back into the pair and exactly the attribute list |
| `Cookies.MaxAgeReadsBack` | frontend/src/App.tsx:72 | the digits after `max-age=` parse back to the number written |
| `Cookies.SameSiteReadsBack` | frontend/src/App.tsx:72 | the text after `samesite=` parses back to the mode written |
| `Cookies.SecureAndHttpOnly` | frontend/src/App.tsx:72-76 | `secure` is an attribute exactly when configured, and no attribute starts with `httponly` |
| `Cookies.AttributeFacts` | frontend/src/App.tsx:72-76 | the attributes are `path=/`, then a `max-age` whose digits parse back to `max_age`, then a `samesite` that parses back to the policy; `secure` is present iff the config is secure; `httponly` is never written |
| `Cookies.ParseCookieString` | frontend/src/App.tsx:71-78 | parsing a written cookie string recovers its name, value, path, max-age and samesite, and `secure` exactly when it was set |
| `Cookies.HttpOnlyIgnored` | frontend/src/App.tsx:72-76 | the written string does not depend on `httponly` |
| `Cookies.SetCookiesInBrowser` | frontend/src/App.tsx:67-80 | one write per cookie entry, in entry order, each being that entry's cookie string, and nothing else |
| `Cookies.RecordWrites` | frontend/src/App.tsx:67-80 | the `{JSESSIONID, ctoken}` record produces exactly two writes, one per cookie, in the key order the record arrived in, whichever cookie comes first |
| `Cookies.PolicyReachesBrowser` | backend/app/config.py:28-51 | backend policy to browser: a cookie merged with the policy, decoded and written, parses as the pair, `path=/`, max-age 3600 and `samesite=lax`, and carries `secure` iff the environment is production and HTTPS is on |
| `Resources.LoadScript` | frontend/src/components/TCEPlayer.tsx:28-41 | a `src` already present resolves and leaves the head alone, whatever that node's load state; otherwise exactly one script node with that `src` is appended, and the promise resolves iff its load succeeds |
| `Resources.LoadStyle` | frontend/src/components/TCEPlayer.tsx:43-57 | the same rule keyed by `link[href]`; the appended node has `rel = "stylesheet"` |
| `Resources.LoadScriptKeepsUnique` | frontend/src/components/TCEPlayer.tsx:30-39 | a head with no duplicate URLs keeps none after a script request |
| `Resources.LoadStyleKeepsUnique` | frontend/src/components/TCEPlayer.tsx:45-55 | a head with no duplicate URLs keeps none after a stylesheet request |
| `Resources.RepeatedScriptRequestResolves` | frontend/src/components/TCEPlayer.tsx:30-33 | a second request for a script URL resolves at once without touching the head, even when the first load failed |
| `Resources.LoadInOrder` | frontend/src/components/TCEPlayer.tsx:61-80 | the requested resources are a prefix of the list; the head is only extended; the run succeeds iff every resource succeeds; on failure every earlier resource succeeded, the last one requested failed, and nothing after it was requested |
| `Resources.RequestedArePresent` | frontend/src/components/TCEPlayer.tsx:61-80 | after a run, every requested resource has its node in the head |
| `Resources.LoadInOrderKeepsUnique` | frontend/src/components/TCEPlayer.tsx:61-80 | a run never makes a duplicate node |
| `Resources.LoadResources` | frontend/src/components/TCEPlayer.tsx:59-84 | `styles.css`, then `resizePlayer.js`, then `tce-player-hybrid.js`; the loaded flag is set iff all three succeed; a stylesheet failure means no script is requested; the head stays free of duplicates |
| `Player.HandleLoadPlayer` | frontend/src/components/TCEPlayer.tsx:86-167 | nothing changes iff the stored id is the event's and the initialized flag is set, by any player's `next`. Otherwise the id is stored and four calls are appended: the token (`access_token`, `access_token_expiry_time` from `expiryTime`, `access_token_gen_time` from `expiresIn`), the config, which is exactly `ConfigFor`'s payload (the id, the asset, the fixed iframe frame, an empty `gateway`, `minEraserArea` 10000000000, `baseUrl` empty in development and the remote host otherwise), subscribe and one init. The new subscription is stored, and nothing else changes |
| `Player.BaseConfig` | frontend/src/components/TCEPlayer.tsx:103-120 | the config as first built: the player id, the asset, the fixed frame, an empty gateway, `minEraserArea` 50, and a `baseUrl` that is empty in development and the fixed remote host `https://ce-dev-azvasa.devstudi.com` in every other environment |
| `Player.ConfigFor` | frontend/src/components/TCEPlayer.tsx:138-143 | the config sent: the later `minEraserArea` of 10000000000 wins, and every other field is the one first built |
| `Player.OnNext` | frontend/src/components/TCEPlayer.tsx:149-153 | `next` sets the initialized flag and changes nothing else |
| `Player.Mount` | frontend/src/components/TCEPlayer.tsx:169-192 | without loaded resources or a container nothing happens; otherwise the container holds exactly one listening `tce-player` element, bound to the current props, and nothing else changes |
| `Player.Cleanup` | frontend/src/components/TCEPlayer.tsx:194-209 | the container is emptied and the listener dropped; `unsubscribe` is called on the stored subscription iff one is stored; the stored id, the initialized flag and the stored subscription are kept |
| `Player.Remount` | frontend/src/components/TCEPlayer.tsx:169-210 | cleanup then mount: a listening element over the current props iff resources and container are there; one unsubscribe iff a mount was in force with a stored subscription; refs, stored subscription, head, registry and environment kept |
| `Player.Step` | frontend/src/components/TCEPlayer.tsx:59-210 | no transition removes a bridge call or a head node, clears the initialized flag or the stored id, or changes the registry or the environment |
| `Player.StartSatisfiesInv` | frontend/src/components/TCEPlayer.tsx:20-26 | the first render's world satisfies the invariant |
| `Player.BlocksAppendConfigure` | frontend/src/components/TCEPlayer.tsx:129-164 | a trace of whole blocks stays one after a configure block is appended |
| `Player.BlocksAppendUnsubscribe` | frontend/src/components/TCEPlayer.tsx:206-208 | a trace of whole blocks stays one after an unsubscribe |
| `Player.SubscriptionsNamedAppend` | frontend/src/components/TCEPlayer.tsx:148-160 | appending calls whose subscriptions are named by position, and whose unsubscribes name earlier subscriptions, keeps the trace well named |
| `Player.ConfigureKeepsTraceInv` | frontend/src/components/TCEPlayer.tsx:101-164 | storing the id and a fresh configure block's subscription keeps the trace invariant |
| `Player.HandlePreservesInv` | frontend/src/components/TCEPlayer.tsx:86-167 | the handler keeps the trace invariant |
| `Player.CleanupPreservesInv` | frontend/src/components/TCEPlayer.tsx:194-209 | cleanup keeps the trace invariant |
| `Player.StepPreservesInv` | frontend/src/components/TCEPlayer.tsx:59-210 | every transition keeps the component invariant |
| `Lifecycle.SkipRule` | frontend/src/components/TCEPlayer.tsx:93-99 | a `loadplayer` event changes nothing iff its id is the stored one and the initialized flag is set, by any player's `next`; otherwise it makes token, config, subscribe and init in that order |
| `Lifecycle.FreshSubscriptionLive` | frontend/src/components/TCEPlayer.tsx:147-160 | the subscription the handler stores has not been unsubscribed |
| `Lifecycle.SharedInitializedFlag` | frontend/src/components/TCEPlayer.tsx:93-99 | with the flag set by some player, a `loadplayer` for a different id makes the four configure calls once, and a repeat of it is skipped without that player's `next` |
| `Lifecycle.NoDuplicateInit` | frontend/src/components/TCEPlayer.tsx:93-99 | once a player is set up and `next` has fired, a second `loadplayer` for its id makes no bridge call |
| `Lifecycle.InitializedOnlyOnNext` | frontend/src/components/TCEPlayer.tsx:149-156 | only `next` sets the initialized flag, and no transition clears it |
| `Lifecycle.ErrorIsInert` | frontend/src/components/TCEPlayer.tsx:154-156 | a subscription error changes nothing |
| `Lifecycle.PropsChangeRemounts` | frontend/src/components/TCEPlayer.tsx:166-210 | new props while mounted: the old mount is torn down, with one unsubscribe iff a subscription is stored; one listening element over the new props replaces it; the refs survive |
| `Lifecycle.NewPropsNotDeliveredOnSameId` | frontend/src/components/TCEPlayer.tsx:166-210 | after new props, a `loadplayer` for the running player's id makes no token or config call |
| `Lifecycle.RepeatedCleanupUnsubscribesAgain` | frontend/src/components/TCEPlayer.tsx:206-208 | two changes of props with no handled `loadplayer` between them unsubscribe the stored subscription twice |
| `Lifecycle.NoMountWithoutResources` | frontend/src/components/TCEPlayer.tsx:170 | until the resources have loaded, nothing is mounted and the container stays empty |
| `Lifecycle.StyleFailureStopsActivation` | frontend/src/components/TCEPlayer.tsx:61-80 | a rejected stylesheet means no script is requested, nothing is mounted and no bridge call is made |
| `Lifecycle.InitsClosedExtend` | frontend/src/components/TCEPlayer.tsx:129-164 | appending a block keeps every init at the end of its configure block |
| `Lifecycle.InitClosesBlock` | frontend/src/components/TCEPlayer.tsx:129-164 | in a trace of blocks, every init ends a token, config, subscribe, init block for one player |
| `Lifecycle.TokensOpenExtend` | frontend/src/components/TCEPlayer.tsx:129-164 | appending a block keeps every token at the start of a full configure block |
| `Lifecycle.TokenOpensBlock` | frontend/src/components/TCEPlayer.tsx:129-164 | in a trace of blocks, every token call opens a full configure block for one player |
| `Lifecycle.CallOrder` | frontend/src/components/TCEPlayer.tsx:129-164 | in every reachable world, the bridge calls come in unsplit token, config, subscribe, init blocks |
| `Lifecycle.HappyPath` | frontend/src/components/TCEPlayer.tsx:59-192 | resources load and one element is mounted; `loadplayer` "P1" makes exactly the four calls with the production config; `next` sets the initialized flag; a repeat of "P1" is ignored |
| `App.TimeoutText` | frontend/src/App.tsx:183 | the text `parseInt` reads is the client's `clientTimeout` when there is a client and that text is non-empty, and `"0"` otherwise |
| `App.ExpiryTime` | frontend/src/App.tsx:182-183 | a non-zero token stamp is the expiry; otherwise the expiry is `parseInt` of the client timeout, or of `"0"` when there is none |
| `App.ExpiryNeverAddsTimeout` | frontend/src/App.tsx:182-183 | with a non-zero stamp and a non-zero timeout, the expiry is the stamp, and differs from the sum of the two |
| `App.ExpiryFallsBackToTimeout` | frontend/src/App.tsx:182-183 | without a stamp the expiry is the client's timeout, or 0 without a client |
| `App.AppStep` | frontend/src/App.tsx:91-180 | one reply or click: requests and cookie writes are only appended to, at most one request per step, and a request is added only when a client or a token arrives; cookie writes change only when a client arrives, which stores its id and appends exactly the writes `setCookiesInBrowser` makes for its cookies (App.tsx:104); a reply ends its own fetch; a click selects the clicked asset and changes nothing else |
| `App.InitialSatisfiesAppInv` | frontend/src/App.tsx:83-113 | the first render, with only the client-id fetch started, satisfies the shell's invariant |
| `App.AppStepPreservesInv` | frontend/src/App.tsx:91-180 | every reply and click keeps the shell's invariant |
| `App.SectionsFollowFetches` | frontend/src/App.tsx:197-212 | in every reachable state the "Token" section is shown exactly when the token has been requested, and the "Assets" section exactly when the assets have |
| `App.FetchGating` | frontend/src/App.tsx:137-179 | the token is requested only once a client is set; the assets only once a token is set, with `Authorization: Bearer <access_token>`; at most three requests are made |
| `App.AssetsArrivalSelectsFirst` | frontend/src/App.tsx:163-167 | after an asset reply, the list is the playlist's and its first asset is selected |
| `App.Highlighted` | frontend/src/App.tsx:236-237 | the selected asset's own button is highlighted, and nothing is highlighted without a selection |
| `App.ButtonColors` | frontend/src/App.tsx:235-244 | a button is green on white iff a selection exists with the button's `assetId`; otherwise it has no colours |
| `App.ClickHighlights` | frontend/src/App.tsx:246 | after a click, exactly the buttons whose asset id equals the clicked asset's id are highlighted |
| `App.RenderedPlayer` | frontend/src/App.tsx:259-266 | the player is rendered iff a client and a token are set and the asset list is non-empty. It receives the token's `access_token` and `expires_in`, the expiry, and the selection |
| `App.RenderedPlayerHasAsset` | frontend/src/App.tsx:163-167 | in every reachable state, a rendered player is given an asset, never null |
| `App.SelectionChangesPlayerProps` | frontend/src/App.tsx:246-266 | selecting another asset while the player is shown hands the player new props, with the clicked asset |

## Left out

- Network I/O. This covers every HTTP request: the backend proxying in `main.py`, its status-code mapping and logging, and the axios calls in `App.tsx`. Replies are inputs of the shell's events, and a failed request is `None`.
- The backend's `cookies_dict` is keyed by cookie name, so a repeated name keeps only the last one. The model takes the front end's `{JSESSIONID, ctoken}` record as given and models the per-cookie merge only.
- React scheduling, `StrictMode` double effects and `useEffect` timing. Each effect is an explicit transition, and a change of dependencies is a cleanup followed by the effect (`Player.Remount`). Unmounting the component is that same cleanup.
- The widget runtime (`window.angularReference`, `zone.run`, the observable) is not part of this model. It is an opaque bridge that records calls. `zone.run` is sequential execution. A `next` is a later event and is never delivered synchronously during `subscribe`.
- Player.HandleLoadPlayer: requires the event's id to be registered. The code dereferences the registry entry unguarded, so an unregistered id throws, and that throw is not modelled.
- Asynchrony of a node's `onload`/`onerror`. A load's outcome is decided by whether its URL is in the `reachable` input. Nodes left pending by an interrupted load are not modelled.
- `document.querySelector` looks through the whole document. The model looks through the head, where the loader puts its nodes.
- The `_isPlayerInitialized` state is set but never read, so only its ref is modelled.
- JsNumbers.ParseInt: decimal only. It does not skip leading whitespace, does not read `0x` prefixes and does not round numbers beyond 2^53. The texts it meets here are decimal timeouts.
- Number-to-string rendering of exponents, `-0` and values at or above 1e21 in the cookie `max-age`. `max_age` is the integer 3600 on every path the backend produces.
- `JSON.parse` of `playlistJson`. The asset reply is the parsed list itself, and a parse failure is a failed reply.
- Asset identity. React compares the selection by reference, while the model compares whole asset values. The highlight compares `assetId`, as the code does.
- Logging, JSX layout and styling other than the two highlight colours.
- `frontend/vite.config.ts` and `frontend/src/config/api.ts` hold only transport constants and a mode switch.
- The asset record keeps only the fields the shell reads or shows; the optional catalogue fields of `IAsset` are dropped.

=== FILE: app.dfy ===
/**
 * The application shell: the three fetches chained by effects, the
 * cookies written on the client response, the `expiryTime` expression,
 * what is rendered when, and which asset button is highlighted.
 *
 * Fetch replies are inputs; a failed fetch is `None`.
 */
module App {

  import opened Options
  import opened JsNumbers
  import opened Entities
  import Cookies
  import Player

  /** `client?.clientTimeout || "0"`: a missing client or an empty string falls back to "0". */
  function TimeoutText(client: Option<ClientId>): (t: string)
    ensures client.Some? && client.value.clientTimeout != "" ==> t == client.value.clientTimeout
    ensures client.None? || client.value.clientTimeout == "" ==> t == "0"
    ensures |t| > 0
  {
    if client.Some? && client.value.clientTimeout != "" then client.value.clientTimeout else "0"
  }

  /**
   * `token?.tstamp || 0 + parseInt(client?.clientTimeout || "0")`.
   * `+` binds tighter than `||`, so the timeout is the fallback for a
   * falsy stamp, never an addend.
   */
  function ExpiryTime(token: Option<Token>, client: Option<ClientId>): (r: JsNum)
    ensures token.Some? && token.value.tstamp != 0 ==> r == Num(token.value.tstamp)
    ensures !(token.Some? && token.value.tstamp != 0) ==> r == ParseInt(TimeoutText(client))
  {
    if token.Some? && Truthy(Num(token.value.tstamp)) then Num(token.value.tstamp)
    else Add(Num(0), ParseInt(TimeoutText(client)))
  }

  /** The reading `(token?.tstamp || 0) + parseInt(…)`, which the expression does not compute. */
  function SummedExpiry(token: Option<Token>, client: Option<ClientId>): JsNum {
    Add(Num(if token.Some? then token.value.tstamp else 0), ParseInt(TimeoutText(client)))
  }

  /** A non-zero stamp is passed on as it is; a non-zero timeout is not added to it. */
  lemma ExpiryNeverAddsTimeout(token: Token, client: ClientId, timeout: int)
    requires token.tstamp != 0 && timeout != 0
    requires client.clientTimeout == IntToDecimal(timeout)
    ensures ExpiryTime(Some(token), Some(client)) == Num(token.tstamp)
    ensures ExpiryTime(Some(token), Some(client)) != SummedExpiry(Some(token), Some(client))
  {
    ParseIntOfDecimal(timeout, "");
    assert IntToDecimal(timeout) + "" == IntToDecimal(timeout);
  }

  /** Without a usable stamp the expiry is the parsed client timeout, and 0 without a client. */
  lemma ExpiryFallsBackToTimeout(token: Option<Token>, client: Option<ClientId>, timeout: int)
    requires token.None? || token.value.tstamp == 0
    requires client.Some? ==> client.value.clientTimeout == IntToDecimal(timeout)
    ensures client.Some? ==> ExpiryTime(token, client) == Num(timeout)
    ensures client.None? ==> ExpiryTime(token, client) == Num(0)
    ensures ExpiryTime(token, client) == SummedExpiry(token, client)
  {
    ParseIntOfDecimal(timeout, "");
    assert IntToDecimal(timeout) + "" == IntToDecimal(timeout);
    ParseIntOfDecimal(0, "");
    assert IntToDecimal(0) == "0";
  }

  /** A request the shell sends; the asset request carries its `Authorization` header. */
  datatype Fetch = FetchClient | FetchToken | FetchAssets(authorization: string)

  /** The reply to the client-id request: cookie entries in object order, and the descriptor. */
  datatype ClientReply = ClientReply(cookies: seq<(string, CookieConfig)>, clientId: ClientId)

  datatype AppState = AppState(
    fetchingClient: bool,
    fetchingToken: bool,
    fetchingAssets: bool,
    client: Option<ClientId>,
    token: Option<Token>,
    assets: seq<Asset>,
    selected: Option<Asset>,
    cookieWrites: seq<string>,
    requests: seq<Fetch>)

  /** After the first render: the client-id fetch is under way. */
  function Initial(): AppState {
    AppState(true, false, false, None, None, [], None, [], [FetchClient])
  }

  function Bearer(t: Token): string {
    "Bearer " + t.accessToken
  }

  datatype AppEvent =
    | ClientArrived(reply: Option<ClientReply>)
    | TokenArrived(token: Option<Token>)
    | AssetsArrived(playlist: Option<seq<Asset>>)
    | Click(index: nat)

  /** "Token" is shown once the client fetch has finished with a client. */
  predicate ShowTokenSection(app: AppState) {
    !app.fetchingClient && app.client.Some?
  }

  /** "Assets" is shown once the token fetch has finished with a token. */
  predicate ShowAssetsSection(app: AppState) {
    !app.fetchingToken && app.token.Some?
  }

  /** Replies answer requests in flight; buttons exist only while the asset list is shown. */
  predicate ValidAppEvent(app: AppState, e: AppEvent) {
    match e
    case ClientArrived(_) => app.fetchingClient
    case TokenArrived(_) => app.fetchingToken
    case AssetsArrived(_) => app.fetchingAssets
    case Click(i) => ShowAssetsSection(app) && !app.fetchingAssets && i < |app.assets|
  }

  /**
   * One transition, including the effects it triggers: a new client
   * starts the token fetch, a new token starts the asset fetch.
   */
  function AppStep(app: AppState, e: AppEvent): (r: AppState)
    requires ValidAppEvent(app, e)
    ensures |app.requests| <= |r.requests| <= |app.requests| + 1 && r.requests[..|app.requests|] == app.requests
    ensures |r.requests| > |app.requests| ==> (e.ClientArrived? && e.reply.Some?) || (e.TokenArrived? && e.token.Some?)
    ensures |app.cookieWrites| <= |r.cookieWrites| && r.cookieWrites[..|app.cookieWrites|] == app.cookieWrites
    ensures e.ClientArrived? && e.reply.Some? ==>
      && r.client == Some(e.reply.value.clientId)
      && r.cookieWrites == app.cookieWrites + Cookies.SetCookiesInBrowser(e.reply.value.cookies)
    ensures !(e.ClientArrived? && e.reply.Some?) ==> r.cookieWrites == app.cookieWrites
    ensures e.ClientArrived? ==> !r.fetchingClient
    ensures e.TokenArrived? ==> !r.fetchingToken
    ensures e.AssetsArrived? ==> !r.fetchingAssets
    ensures e.Click? ==> r.selected == Some(app.assets[e.index]) && r.(selected := app.selected) == app
  {
    match e
    case ClientArrived(None) =>
      app.(fetchingClient := false)
    case ClientArrived(Some(reply)) =>
      app.(fetchingClient := false, client := Some(reply.clientId),
           cookieWrites := app.cookieWrites + Cookies.SetCookiesInBrowser(reply.cookies),
           fetchingToken := true, requests := app.requests + [FetchToken])
    case TokenArrived(None) =>
      app.(fetchingToken := false)
    case TokenArrived(Some(t)) =>
      app.(fetchingToken := false, token := Some(t),
           fetchingAssets := true, requests := app.requests + [FetchAssets(Bearer(t))])
    case AssetsArrived(None) =>
      app.(fetchingAssets := false)
    case AssetsArrived(Some(list)) =>
      app.(fetchingAssets := false, assets := list,
           selected := if |list| > 0 then Some(list[0]) else None)
    case Click(i) =>
      app.(selected := Some(app.assets[i]))
  }

  /** What holds in every reachable state of the shell. */
  predicate AppInv(app: AppState) {
    && app.requests
       == [FetchClient]
          + (if app.client.Some? then [FetchToken] else [])
          + (if app.token.Some? then [FetchAssets(Bearer(app.token.value))] else [])
    && (app.fetchingClient ==> app.client.None?)
    && (app.token.Some? ==> app.client.Some?)
    && (app.token.None? ==> app.assets == [])
    && (app.fetchingToken ==> app.client.Some? && app.token.None?)
    && (app.fetchingAssets ==> app.token.Some? && app.assets == [])
    && (app.selected.Some? ==> app.selected.value in app.assets)
    && (|app.assets| > 0 ==> app.selected.Some?)
  }

  lemma InitialSatisfiesAppInv()
    ensures AppInv(Initial())
  {
  }

  lemma AppStepPreservesInv(app: AppState, e: AppEvent)
    requires AppInv(app) && ValidAppEvent(app, e)
    ensures AppInv(AppStep(app, e))
  {
  }

  /**
   * The "Token" section is shown exactly once the token has been
   * requested, and the "Assets" section exactly once the assets have.
   */
  lemma SectionsFollowFetches(app: AppState)
    requires AppInv(app)
    ensures ShowTokenSection(app) <==> FetchToken in app.requests
    ensures ShowAssetsSection(app) <==> app.requests[|app.requests| - 1].FetchAssets?
  {
  }

  /**
   * Gating of the fetches: the token is requested only once a client
   * is set, the assets only once a token is set, and with that token.
   */
  lemma FetchGating(app: AppState)
    requires AppInv(app)
    ensures FetchToken in app.requests ==> app.client.Some?
    ensures forall a :: FetchAssets(a) in app.requests ==> app.token.Some? && a == "Bearer " + app.token.value.accessToken
    ensures |app.requests| <= 3
  {
  }

  /** After a successful asset fetch the list is the playlist's and the first asset is selected. */
  lemma AssetsArrivalSelectsFirst(app: AppState, list: seq<Asset>)
    requires ValidAppEvent(app, AssetsArrived(Some(list)))
    ensures var r := AppStep(app, AssetsArrived(Some(list)));
      && r.assets == list
      && (|list| > 0 ==> r.selected == Some(list[0]))
      && (|list| == 0 ==> r.selected.None?)
  {
  }

  /** An asset button is highlighted exactly when a selection exists with the button's id. */
  function Highlighted(selected: Option<Asset>, button: Asset): (h: bool)
    ensures selected == Some(button) ==> h
    ensures selected.None? ==> !h
  {
    selected.Some? && selected.value.assetId == button.assetId
  }

  /** The button's background and text colours. */
  function ButtonColors(selected: Option<Asset>, button: Asset): (c: (string, string))
    ensures c == ("green", "white") <==> Highlighted(selected, button)
    ensures c != ("green", "white") ==> c == ("", "")
  {
    if Highlighted(selected, button) then ("green", "white") else ("", "")
  }

  /** Clicking a button highlights it, and any other button only when it shows the same asset id. */
  lemma ClickHighlights(app: AppState, i: nat)
    requires ValidAppEvent(app, Click(i))
    ensures var r := AppStep(app, Click(i));
      forall j :: 0 <= j < |r.assets| ==>
        (ButtonColors(r.selected, r.assets[j]) == ("green", "white") <==> r.assets[j].assetId == app.assets[i].assetId)
  {
  }

  /**
   * The player is rendered exactly when client and token are set and the
   * asset list is non-empty, with the token's fields and the selection.
   */
  function RenderedPlayer(app: AppState): (r: Option<Player.Props>)
    ensures r.Some? <==> app.client.Some? && app.token.Some? && |app.assets| > 0
    ensures r.Some? ==>
      && r.value.accessToken == app.token.value.accessToken
      && r.value.expiresIn == app.token.value.expiresIn
      && r.value.expiryTime == ExpiryTime(app.token, app.client)
      && r.value.asset == app.selected
  {
    if app.client.Some? && app.token.Some? && |app.assets| > 0 then
      Some(Player.Props(app.token.value.accessToken, ExpiryTime(app.token, app.client),
                        app.token.value.expiresIn, app.selected))
    else None
  }

  /** In every reachable state, a rendered player is given an asset, never null. */
  lemma RenderedPlayerHasAsset(app: AppState)
    requires AppInv(app)
    ensures RenderedPlayer(app).Some? ==> RenderedPlayer(app).value.asset.Some?
  {
  }

  /**
   * Selecting a different asset while the player is shown hands it new
   * props, which remounts it.
   */
  lemma SelectionChangesPlayerProps(app: AppState, i: nat)
    requires AppInv(app) && ValidAppEvent(app, Click(i))
    requires RenderedPlayer(app).Some? && app.selected != Some(app.assets[i])
    ensures var r := AppStep(app, Click(i));
      RenderedPlayer(r).Some? && RenderedPlayer(r) != RenderedPlayer(app)
      && RenderedPlayer(r).value.asset == Some(app.assets[i])
  {
  }

}

=== FILE: config.dfy ===
/**
 * The backend settings object: its fields come from the environment,
 * and three derived properties (production flag, CORS origins, cookie
 * policy) are pure functions of them.
 */
module Config {

  /** The Python values a settings-derived dictionary can hold. */
  datatype PyValue = PyBool(b: bool) | PyInt(i: int) | PyStr(s: string)

  /** A Python `dict` with string keys. */
  type Dict = map<string, PyValue>

  datatype Settings = Settings(
    environment: string,
    frontendUrl: string,
    backendHost: string,
    backendPort: string,
    authBaseUrl: string,
    useHttps: bool)

  /** `dict.update(other)`: every key of `other` is written, the rest kept. */
  function Update(d: Dict, other: Dict): (r: Dict)
    ensures r.Keys == d.Keys + other.Keys
    ensures forall k :: k in other ==> r[k] == other[k]
    ensures forall k :: k in d && k !in other ==> r[k] == d[k]
  {
    d + other
  }

  predicate IsProduction(s: Settings) {
    s.environment == "production"
  }

  const Hosts: seq<string> := ["localhost", "127.0.0.1"]
  const Ports: seq<string> := ["3000", "5173"]

  /** The allowed origins: every local host name with every dev-server port. */
  function CorsOrigins(s: Settings): (r: seq<string>)
    ensures |r| == 4
    ensures forall i :: 0 <= i < |r| ==> r[i] == "http://" + Hosts[i % 2] + ":" + Ports[i / 2]
  {
    [ "http://localhost:3000",
      "http://127.0.0.1:3000",
      "http://localhost:5173",
      "http://127.0.0.1:5173" ]
  }

  const CookieKeys: set<string> := {"httponly", "max_age", "secure", "samesite"}

  /**
   * The cookie policy: a base of `httponly` and `max_age`, updated with
   * `secure` and `samesite` in a branch on the production flag.
   */
  function CookiePolicy(s: Settings): (r: Dict)
    ensures r.Keys == CookieKeys
    ensures r["httponly"] == PyBool(true) && r["max_age"] == PyInt(3600)
    ensures r["samesite"] == PyStr("lax")
    ensures IsProduction(s) ==> r["secure"] == PyBool(s.useHttps)
    ensures !IsProduction(s) ==> r["secure"] == PyBool(false)
  {
    var base := map["httponly" := PyBool(true), "max_age" := PyInt(3600)];
    if IsProduction(s) then
      Update(base, map["secure" := PyBool(s.useHttps), "samesite" := PyStr("lax")])
    else
      Update(base, map["secure" := PyBool(false), "samesite" := PyStr("lax")])
  }

  /** Only the exact text "production" turns the production branch on. */
  lemma SecureNeedsExactProduction(s: Settings)
    requires CookiePolicy(s)["secure"] == PyBool(true)
    ensures s.environment == "production" && s.useHttps
  {
  }

  /**
   * The production branch needs the exact text: any other environment,
   * a near miss in case, abbreviation or trailing space included, is not
   * production, and its cookies are not secure even with HTTPS on.
   */
  lemma OnlyExactProductionText(s: Settings)
    requires s.environment != "production"
    ensures !IsProduction(s)
    ensures CookiePolicy(s)["secure"] == PyBool(false)
  {
  }

  /** Environment and HTTPS flag change nothing but the `secure` entry. */
  lemma CookiePolicyDiffersOnlyInSecure(s: Settings, t: Settings)
    ensures CookiePolicy(s) - {"secure"} == CookiePolicy(t) - {"secure"}
  {
  }

}

=== FILE: cookies.dfy ===
/**
 * The cookie pipeline: the backend merges each upstream cookie value
 * with its cookie policy, and the front end serialises every entry it
 * receives into a `document.cookie` assignment.
 */
module Cookies {

  import opened Options
  import opened JsNumbers
  import opened Entities
  import Config

  function SameSiteText(x: SameSite): string {
    match x
    case Lax => "lax"
    case Strict => "strict"
    case NoneSite => "none"
  }

  function ParseSameSite(t: string): (r: Option<SameSite>)
    ensures r.Some? ==> SameSiteText(r.value) == t
  {
    if t == "lax" then Some(Lax)
    else if t == "strict" then Some(Strict)
    else if t == "none" then Some(NoneSite)
    else None
  }

  /** `{"value": cookie.value, **cookie_config}`: later keys win. */
  function Merge(value: string, policy: Config.Dict): (r: Config.Dict)
    ensures r.Keys == {"value"} + policy.Keys
    ensures "value" !in policy ==> r["value"] == Config.PyStr(value)
    ensures forall k :: k in policy ==> r[k] == policy[k]
  {
    map["value" := Config.PyStr(value)] + policy
  }

  const RecordKeys: set<string> := {"value", "httponly", "max_age", "secure", "samesite"}

  /** The JSON shape of an `ICookieConfig`. */
  function Encode(c: CookieConfig): (r: Config.Dict)
    ensures r.Keys == RecordKeys
  {
    map[
      "value" := Config.PyStr(c.value),
      "httponly" := Config.PyBool(c.httponly),
      "max_age" := Config.PyInt(c.maxAge),
      "secure" := Config.PyBool(c.secure),
      "samesite" := Config.PyStr(SameSiteText(c.sameSite))]
  }

  /** Reading a received JSON object as an `ICookieConfig`; None when it does not have that shape. */
  function Decode(d: Config.Dict): Option<CookieConfig> {
    if && "value" in d && d["value"].PyStr?
       && "httponly" in d && d["httponly"].PyBool?
       && "max_age" in d && d["max_age"].PyInt?
       && "secure" in d && d["secure"].PyBool?
       && "samesite" in d && d["samesite"].PyStr?
       && ParseSameSite(d["samesite"].s).Some?
    then
      Some(CookieConfig(
        d["value"].s, d["httponly"].b, d["max_age"].i, d["secure"].b,
        ParseSameSite(d["samesite"].s).value))
    else
      None
  }

  lemma DecodeEncode(c: CookieConfig)
    ensures Decode(Encode(c)) == Some(c)
  {
    match c.sameSite
    case Lax =>
    case Strict =>
    case NoneSite =>
  }

  lemma EncodeDecode(d: Config.Dict)
    requires d.Keys == RecordKeys
    requires Decode(d).Some?
    ensures Encode(Decode(d).value) == d
  {
    var e := Encode(Decode(d).value);
    forall k | k in RecordKeys
      ensures e[k] == d[k]
    {
    }
  }

  /**
   * The backend's merge of any cookie value with the cookie policy of
   * any settings is a well-formed `ICookieConfig` carrying that policy.
   */
  lemma MergedPolicyDecodes(s: Config.Settings, value: string)
    ensures Decode(Merge(value, Config.CookiePolicy(s)))
         == Some(CookieConfig(value, true, 3600, Config.IsProduction(s) && s.useHttps, Lax))
  {
    var d := Merge(value, Config.CookiePolicy(s));
    assert d["samesite"] == Config.PyStr("lax");
    assert d["value"] == Config.PyStr(value);
  }

  /**
   * The string written to `document.cookie` for one entry: the
   * `name=value` pair and the attributes, joined by the separator.
   */
  function CookieString(name: string, c: CookieConfig): (r: string)
    ensures r == Join([name + "=" + c.value] + Attributes(c))
  {
    var pair := name + "=" + c.value;
    var base := pair + "; path=/; max-age=" + IntToDecimal(c.maxAge)
                + "; samesite=" + SameSiteText(c.sameSite);
    TemplateIsJoin(pair, IntToDecimal(c.maxAge), SameSiteText(c.sameSite), c.secure);
    assert [pair] + Attributes(c)
        == [pair, "path=/", "max-age=" + IntToDecimal(c.maxAge), "samesite=" + SameSiteText(c.sameSite)]
           + (if c.secure then ["secure"] else []);
    if c.secure then base + "; secure" else base
  }

  /** The attributes that follow the `name=value` pair, in order. */
  function Attributes(c: CookieConfig): (a: seq<string>)
    ensures |a| == if c.secure then 4 else 3
  {
    ["path=/", "max-age=" + IntToDecimal(c.maxAge), "samesite=" + SameSiteText(c.sameSite)]
    + (if c.secure then ["secure"] else [])
  }

  /** Parts joined by the cookie separator "; ". */
  function Join(parts: seq<string>): string
    decreases |parts|
  {
    if |parts| == 0 then ""
    else if |parts| == 1 then parts[0]
    else parts[0] + "; " + Join(parts[1..])
  }

  function FirstSemicolon(s: string): (i: nat)
    requires ';' in s
    ensures i < |s| && s[i] == ';' && ';' !in s[..i]
  {
    if s[0] == ';' then 0
    else
      assert ';' in s[1..] by { assert s == [s[0]] + s[1..]; }
      var j := FirstSemicolon(s[1..]);
      assert s[..j + 1] == [s[0]] + s[1..][..j];
      j + 1
  }

  function DropSpace(s: string): string {
    if |s| > 0 && s[0] == ' ' then s[1..] else s
  }

  /** Cutting a cookie string at each ';' and dropping the one space after it. */
  function Split(s: string): (r: seq<string>)
    ensures |r| > 0
    decreases |s|
  {
    if ';' !in s then [s]
    else
      var i := FirstSemicolon(s);
      [s[..i]] + Split(DropSpace(s[i + 1..]))
  }

  /** When `p` has no ';', the first ';' of `p + "; " + rest` is the separator right after `p`. */
  lemma FirstSemicolonAfter(p: string, rest: string)
    requires ';' !in p
    ensures ';' in p + "; " + rest && FirstSemicolon(p + "; " + rest) == |p|
  {
    var s := p + "; " + rest;
    assert forall k :: 0 <= k < |p| ==> s[k] == p[k];
    assert s[|p|] == ';';
    var i := FirstSemicolon(s);
    assert forall k :: 0 <= k < i ==> s[..i][k] == s[k];
  }

  /** Splitting at the separator right after a ';'-free part yields that part first. */
  lemma SplitAfterSeparator(p: string, rest: string)
    requires ';' !in p
    ensures Split(p + "; " + rest) == [p] + Split(rest)
  {
    var s := p + "; " + rest;
    FirstSemicolonAfter(p, rest);
    assert s[..|p|] == p;
    assert s[|p| + 1..] == " " + rest;
    assert DropSpace(s[|p| + 1..]) == rest;
  }

  lemma {:induction false} SplitJoin(parts: seq<string>)
    requires |parts| > 0
    requires forall k :: 0 <= k < |parts| ==> ';' !in parts[k]
    ensures Split(Join(parts)) == parts
    decreases |parts|
  {
    if |parts| > 1 {
      var tail := parts[1..];
      assert Join(parts) == parts[0] + "; " + Join(tail);
      SplitAfterSeparator(parts[0], Join(tail));
      assert forall k :: 0 <= k < |tail| ==> ';' !in tail[k] by {
        assert forall k :: 0 <= k < |tail| ==> tail[k] == parts[k + 1];
      }
      SplitJoin(tail);
      assert parts == [parts[0]] + tail;
    }
  }

  lemma JoinFour(a: string, b: string, c: string, d: string)
    ensures Join([a, b, c, d]) == a + "; " + b + "; " + c + "; " + d
  {
    assert [a, b, c, d][1..] == [b, c, d];
    assert [b, c, d][1..] == [c, d];
    assert [c, d][1..] == [d];
    assert Join([c, d]) == c + "; " + d;
    assert Join([b, c, d]) == b + "; " + (c + "; " + d);
    assert b + "; " + (c + "; " + d) == b + "; " + c + "; " + d;
    assert a + "; " + (b + "; " + c + "; " + d) == a + "; " + b + "; " + c + "; " + d;
  }

  lemma JoinFive(a: string, b: string, c: string, d: string, e: string)
    ensures Join([a, b, c, d, e]) == a + "; " + b + "; " + c + "; " + d + "; " + e
  {
    assert [a, b, c, d, e][1..] == [b, c, d, e];
    JoinFour(b, c, d, e);
    assert a + "; " + (b + "; " + c + "; " + d + "; " + e) == a + "; " + b + "; " + c + "; " + d + "; " + e;
  }

  /** Moving the fixed separators of a joined cookie next to each other. */
  lemma Regroup(pair: string, sep: string, path: string, m: string, digits: string, ss: string, text: string)
    ensures pair + sep + path + sep + (m + digits) + sep + (ss + text)
         == pair + (sep + path + sep + m) + digits + (sep + ss) + text
  {
  }

  /** The cookie template, filled with a pair, the max-age digits and the samesite text, is a join. */
  lemma TemplateIsJoin(pair: string, digits: string, text: string, secure: bool)
    ensures var base := pair + "; path=/; max-age=" + digits + "; samesite=" + text;
      (if secure then base + "; secure" else base)
      == Join([pair, "path=/", "max-age=" + digits, "samesite=" + text] + (if secure then ["secure"] else []))
  {
    assert "; " + "path=/" + "; " + "max-age=" == "; path=/; max-age=";
    assert "; " + "samesite=" == "; samesite=";
    Regroup(pair, "; ", "path=/", "max-age=", digits, "samesite=", text);
    if secure {
      assert [pair, "path=/", "max-age=" + digits, "samesite=" + text] + ["secure"]
          == [pair, "path=/", "max-age=" + digits, "samesite=" + text, "secure"];
      JoinFive(pair, "path=/", "max-age=" + digits, "samesite=" + text, "secure");
      assert "; " + "secure" == "; secure";
    } else {
      assert [pair, "path=/", "max-age=" + digits, "samesite=" + text] + []
          == [pair, "path=/", "max-age=" + digits, "samesite=" + text];
      JoinFour(pair, "path=/", "max-age=" + digits, "samesite=" + text);
    }
  }

  lemma PairHasNoSemicolon(name: string, value: string)
    requires ';' !in name && ';' !in value
    ensures ';' !in name + "=" + value
  {
    var pair := name + "=" + value;
    assert forall k :: 0 <= k < |name| ==> pair[k] == name[k];
    assert forall k :: |name| < k < |pair| ==> pair[k] == value[k - |name| - 1];
  }

  lemma AttributesHaveNoSemicolon(c: CookieConfig)
    ensures forall k :: 0 <= k < |Attributes(c)| ==> ';' !in Attributes(c)[k]
  {
    var digits := IntToDecimal(c.maxAge);
    var d := "max-age=" + digits;
    assert forall k :: 8 <= k < |d| ==> d[k] == digits[k - 8];
    var text := SameSiteText(c.sameSite);
    assert ';' !in text;
    var t := "samesite=" + text;
    assert forall k :: 9 <= k < |t| ==> t[k] == text[k - 9];
  }

  /** Cutting a written cookie at its separators gives back the pair and the attributes. */
  lemma SplitCookieString(name: string, c: CookieConfig)
    requires ';' !in name && ';' !in c.value
    ensures Split(CookieString(name, c)) == [name + "=" + c.value] + Attributes(c)
  {
    PairHasNoSemicolon(name, c.value);
    AttributesHaveNoSemicolon(c);
    SplitJoin([name + "=" + c.value] + Attributes(c));
  }

  /** The `max-age` attribute's digits parse back to the number written. */
  lemma MaxAgeReadsBack(n: int)
    ensures ParseInt(("max-age=" + IntToDecimal(n))[|"max-age="|..]) == Num(n)
  {
    assert ("max-age=" + IntToDecimal(n))[|"max-age="|..] == IntToDecimal(n) + "";
    ParseIntOfDecimal(n, "");
  }

  /** The `samesite` attribute's text parses back to the mode written. */
  lemma SameSiteReadsBack(x: SameSite)
    ensures ParseSameSite(("samesite=" + SameSiteText(x))[|"samesite="|..]) == Some(x)
  {
    assert ("samesite=" + SameSiteText(x))[|"samesite="|..] == SameSiteText(x);
    match x
    case Lax =>
    case Strict =>
    case NoneSite =>
  }

  /** `secure` is an attribute exactly when configured, and no attribute starts with `httponly`. */
  lemma SecureAndHttpOnly(c: CookieConfig)
    ensures var a := Attributes(c);
      && ("secure" in a <==> c.secure)
      && (forall k :: 0 <= k < |a| ==> |a[k]| < 8 || a[k][..8] != "httponly")
  {
    var digits := IntToDecimal(c.maxAge);
    var text := SameSiteText(c.sameSite);
    assert ("max-age=" + digits)[..8] == "max-age=";
    assert ("samesite=" + text)[..8] == "samesite";
    assert "secure" != "max-age=" + digits by {
      assert ("max-age=" + digits)[0] != "secure"[0];
    }
    assert "secure" != "samesite=" + text by {
      assert |"samesite=" + text| != |"secure"|;
    }
  }

  /** What the attributes carry: the `max-age` number, the `samesite` mode, `secure` iff configured, never `httponly`. */
  lemma AttributeFacts(c: CookieConfig)
    ensures var a := Attributes(c);
      && a[0] == "path=/"
      && ParseInt(a[1][|"max-age="|..]) == Num(c.maxAge)
      && ParseSameSite(a[2][|"samesite="|..]) == Some(c.sameSite)
      && ("secure" in a <==> c.secure)
      && (forall k :: 0 <= k < |a| ==> |a[k]| < 8 || a[k][..8] != "httponly")
  {
    var a := Attributes(c);
    assert a[1] == "max-age=" + IntToDecimal(c.maxAge);
    assert a[2] == "samesite=" + SameSiteText(c.sameSite);
    MaxAgeReadsBack(c.maxAge);
    SameSiteReadsBack(c.sameSite);
    SecureAndHttpOnly(c);
  }

  /**
   * Reading a written cookie back: its first part is `name=value`, the
   * rest are `path`, `max-age`, `samesite` and, exactly when configured,
   * `secure`; no attribute is `httponly`.
   */
  lemma ParseCookieString(name: string, c: CookieConfig)
    requires ';' !in name && ';' !in c.value
    ensures var parts := Split(CookieString(name, c));
      && |parts| >= 4 && |parts[2]| >= |"max-age="| && |parts[3]| >= |"samesite="|
      && parts == [name + "=" + c.value] + Attributes(c)
      && parts[1..] == Attributes(c)
      && parts[1] == "path=/"
      && ParseInt(parts[2][|"max-age="|..]) == Num(c.maxAge)
      && ParseSameSite(parts[3][|"samesite="|..]) == Some(c.sameSite)
      && ("secure" in parts[1..] <==> c.secure)
      && (forall k :: 1 <= k < |parts| ==> |parts[k]| < 8 || parts[k][..8] != "httponly")
  {
    SplitCookieString(name, c);
    ReadParts(Split(CookieString(name, c)), name + "=" + c.value, c);
  }

  /** What any list made of a pair followed by `c`'s attributes reads back as. */
  lemma ReadParts(parts: seq<string>, pair: string, c: CookieConfig)
    requires parts == [pair] + Attributes(c)
    ensures && parts[0] == pair
      && parts[1..] == Attributes(c)
      && parts[1] == "path=/"
      && ParseInt(parts[2][|"max-age="|..]) == Num(c.maxAge)
      && ParseSameSite(parts[3][|"samesite="|..]) == Some(c.sameSite)
      && ("secure" in parts[1..] <==> c.secure)
      && (forall k :: 1 <= k < |parts| ==> |parts[k]| < 8 || parts[k][..8] != "httponly")
  {
    var a := Attributes(c);
    AttributeFacts(c);
    assert parts[1..] == a;
    assert parts[1] == a[0] && parts[2] == a[1] && parts[3] == a[2];
  }

  /** The `httponly` field never reaches the written string. */
  lemma HttpOnlyIgnored(name: string, c: CookieConfig, b: bool)
    ensures CookieString(name, c) == CookieString(name, c.(httponly := b))
  {
  }

  /**
   * The `{JSESSIONID, ctoken}` record as the front end receives it. Its
   * entries come in the key order of the JSON object, which is the order
   * the backend met the cookies in; `jsessionFirst` records that order.
   */
  datatype CookieRecord = CookieRecord(jsessionId: CookieConfig, ctoken: CookieConfig, jsessionFirst: bool) {
    function Entries(): seq<(string, CookieConfig)> {
      if jsessionFirst then [("JSESSIONID", jsessionId), ("ctoken", ctoken)]
      else [("ctoken", ctoken), ("JSESSIONID", jsessionId)]
    }
  }

  /**
   * `setCookiesInBrowser`: one `document.cookie` write per entry, in
   * entry order, and nothing else. The writes are the result.
   */
  function SetCookiesInBrowser(entries: seq<(string, CookieConfig)>): (writes: seq<string>)
    ensures |writes| == |entries|
    ensures forall k :: 0 <= k < |entries| ==> writes[k] == CookieString(entries[k].0, entries[k].1)
  {
    if |entries| == 0 then []
    else
      var first := CookieString(entries[0].0, entries[0].1);
      var rest := SetCookiesInBrowser(entries[1..]);
      assert forall k :: 1 <= k < |entries| ==> rest[k - 1] == CookieString(entries[k].0, entries[k].1);
      [first] + rest
  }

  /**
   * The record yields exactly two writes, one per cookie, in the
   * record's key order.
   */
  lemma RecordWrites(r: CookieRecord)
    ensures var w := SetCookiesInBrowser(r.Entries());
      var j := CookieString("JSESSIONID", r.jsessionId);
      var t := CookieString("ctoken", r.ctoken);
      && multiset(w) == multiset{j, t}
      && w == (if r.jsessionFirst then [j, t] else [t, j])
  {
    var e := r.Entries();
    var w := SetCookiesInBrowser(e);
    assert |w| == 2 && w[0] == CookieString(e[0].0, e[0].1) && w[1] == CookieString(e[1].0, e[1].1);
    assert w == [w[0], w[1]];
  }

  /**
   * The whole pipeline for one cookie: whatever the settings, the string
   * the browser receives carries `max-age` 3600 and `samesite=lax`, and
   * the `secure` attribute exactly in production over HTTPS.
   */
  lemma PolicyReachesBrowser(s: Config.Settings, name: string, value: string, c: CookieConfig)
    requires ';' !in name && ';' !in value
    requires Decode(Merge(value, Config.CookiePolicy(s))) == Some(c)
    ensures var parts := Split(CookieString(name, c));
      && |parts| >= 4 && |parts[2]| >= |"max-age="| && |parts[3]| >= |"samesite="|
      && parts == [name + "=" + value] + Attributes(c)
      && parts[1] == "path=/"
      && ParseInt(parts[2][|"max-age="|..]) == Num(3600)
      && parts[3] == "samesite=lax"
      && ("secure" in parts[1..] <==> s.environment == "production" && s.useHttps)
  {
    assert c.value == value && c.maxAge == 3600 && c.sameSite == Lax
        && c.secure == (s.environment == "production" && s.useHttps) by {
      MergedPolicyDecodes(s, value);
    }
    var parts := Split(CookieString(name, c));
    SplitCookieString(name, c);
    ReadParts(parts, name + "=" + value, c);
    assert parts[3] == "samesite=" + SameSiteText(Lax);
    LaxAttribute();
  }

  /** The `samesite` attribute the policy writes. */
  lemma LaxAttribute()
    ensures "samesite=" + SameSiteText(Lax) == "samesite=lax"
  {
  }
}

=== FILE: entities.dfy ===
/**
 * The records the front end receives from the backend: the cookie
 * configuration, the client descriptor, the access token and the
 * content asset. The client and token keep every field of their
 * interfaces; the asset keeps its required fields and the optional
 * `subType`, and drops the other optional catalogue fields.
 */
module Entities {

  import opened Options

  datatype SameSite = Lax | Strict | NoneSite

  /** One cookie as the backend describes it (`ICookieConfig`). */
  datatype CookieConfig = CookieConfig(
    value: string,
    httponly: bool,
    maxAge: int,
    secure: bool,
    sameSite: SameSite)

  /** The client descriptor (`IClientID`). */
  datatype ClientId = ClientId(
    apiVersion: string,
    sessionTimeout: string,
    clientTimeout: string,
    defaultSchool: string,
    tstamp: int)

  /** The access token (`IToken`). */
  datatype Token = Token(
    accessToken: string,
    tokenType: string,
    refreshToken: string,
    expiresIn: int,
    scope: string,
    mode: string,
    tstamp: int)

  /** A content asset (`IAsset`); identity is `assetId`. */
  datatype Asset = Asset(
    assetId: string,
    tpId: string,
    title: string,
    mimeType: string,
    assetType: string,
    subType: Option<string>)

}

=== FILE: jsnum.dfy ===
/**
 * The slice of JavaScript number semantics the front end relies on:
 * integers and NaN, truthiness, `+`, the template-literal rendering
 * of an integer and `parseInt` on decimal text.
 */
module JsNumbers {

  /** A JavaScript number restricted to integral values, plus NaN. */
  datatype JsNum = Num(n: int) | NaN

  /** `0` and `NaN` are the falsy numbers. */
  predicate Truthy(x: JsNum) {
    x.Num? && x.n != 0
  }

  /** Numeric `+`: NaN absorbs. */
  function Add(a: JsNum, b: JsNum): JsNum {
    if a.Num? && b.Num? then Num(a.n + b.n) else NaN
  }

  predicate IsDigit(c: char) {
    '0' <= c <= '9'
  }

  predicate AllDigits(s: string) {
    forall i :: 0 <= i < |s| ==> IsDigit(s[i])
  }

  function DigitValue(c: char): (d: nat)
    requires IsDigit(c)
    ensures d < 10
  {
    c as int - '0' as int
  }

  function DigitChar(d: nat): (c: char)
    requires d < 10
    ensures IsDigit(c) && DigitValue(c) == d
  {
    ('0' as int + d) as char
  }

  /** The value of a string of decimal digits, most significant first. */
  function DigitsValue(s: string): nat
    requires AllDigits(s)
  {
    if |s| == 0 then 0 else DigitsValue(s[..|s| - 1]) * 10 + DigitValue(s[|s| - 1])
  }

  /** The shortest decimal text of a natural number. */
  function NatToDecimal(n: nat): (s: string)
    ensures |s| > 0 && AllDigits(s)
  {
    if n < 10 then [DigitChar(n)] else NatToDecimal(n / 10) + [DigitChar(n % 10)]
  }

  /** `${n}` for an integral number: an optional minus sign and the digits. */
  function IntToDecimal(n: int): string {
    if n < 0 then "-" + NatToDecimal(-n) else NatToDecimal(n)
  }

  /** The longest prefix of `s` made of decimal digits. */
  function DigitPrefix(s: string): (p: string)
    ensures |p| <= |s| && p == s[..|p|] && AllDigits(p)
    ensures |p| < |s| ==> !IsDigit(s[|p|])
  {
    if |s| > 0 && IsDigit(s[0]) then [s[0]] + DigitPrefix(s[1..]) else []
  }

  /** The text starts with a minus sign. */
  predicate Negative(s: string) {
    |s| > 0 && s[0] == '-'
  }

  /** The text after an optional leading sign. */
  function Unsigned(s: string): string {
    if |s| > 0 && (s[0] == '-' || s[0] == '+') then s[1..] else s
  }

  /**
   * `parseInt(s)` without a radix on decimal input: an optional sign,
   * then the longest run of digits; no digit at all gives NaN.
   */
  function ParseInt(s: string): (r: JsNum)
    ensures r == NaN <==> |Unsigned(s)| == 0 || !IsDigit(Unsigned(s)[0])
    ensures r.Num? ==> DigitsValue(DigitPrefix(Unsigned(s))) == if Negative(s) then -r.n else r.n
    ensures r.Num? && Negative(s) ==> r.n <= 0
    ensures r.Num? && !Negative(s) ==> r.n >= 0
  {
    var digits := DigitPrefix(Unsigned(s));
    var magnitude: int := if |digits| == 0 then 0 else DigitsValue(digits);
    if |digits| == 0 then NaN
    else if Negative(s) then Num(-magnitude)
    else Num(magnitude)
  }

  lemma {:induction false} DigitsValueOfDecimal(n: nat)
    ensures DigitsValue(NatToDecimal(n)) == n
  {
    if n >= 10 {
      var s := NatToDecimal(n);
      assert s[..|s| - 1] == NatToDecimal(n / 10);
      DigitsValueOfDecimal(n / 10);
    }
  }

  lemma {:induction false} DigitPrefixStopsAtNonDigit(s: string, junk: string)
    requires AllDigits(s)
    requires |junk| == 0 || !IsDigit(junk[0])
    ensures DigitPrefix(s + junk) == s
  {
    if |s| > 0 {
      assert (s + junk)[1..] == s[1..] + junk;
      DigitPrefixStopsAtNonDigit(s[1..], junk);
    } else {
      assert s + junk == junk;
    }
  }

  /** `parseInt` reads an unsigned run of digits up to the first non-digit. */
  lemma ParseIntOfDigits(d: string, junk: string)
    requires |d| > 0 && AllDigits(d)
    requires |junk| == 0 || !IsDigit(junk[0])
    ensures ParseInt(d + junk) == Num(DigitsValue(d))
  {
    var t := d + junk;
    assert !Negative(t) && Unsigned(t) == t && IsDigit(t[0]) by {
      assert t[0] == d[0];
    }
    assert DigitPrefix(t) == d by {
      DigitPrefixStopsAtNonDigit(d, junk);
    }
  }

  /** `parseInt` reads a minus sign and a run of digits up to the first non-digit. */
  lemma ParseIntOfNegativeDigits(d: string, junk: string)
    requires |d| > 0 && AllDigits(d)
    requires |junk| == 0 || !IsDigit(junk[0])
    ensures ParseInt("-" + (d + junk)) == Num(-(DigitsValue(d) as int))
  {
    var t := "-" + (d + junk);
    assert Negative(t) && Unsigned(t) == d + junk by {
      assert t[0] == '-' && t[1..] == d + junk;
    }
    assert IsDigit(Unsigned(t)[0]) by {
      assert (d + junk)[0] == d[0];
    }
    assert DigitPrefix(Unsigned(t)) == d by {
      DigitPrefixStopsAtNonDigit(d, junk);
    }
    var r := ParseInt(t);
    assert r.Num? && DigitsValue(d) == -r.n;
  }

  /**
   * `parseInt` reads back the decimal rendering of any integer, and
   * ignores whatever follows it when that does not start with a digit.
   */
  lemma ParseIntOfDecimal(n: int, junk: string)
    requires |junk| == 0 || !IsDigit(junk[0])
    ensures ParseInt(IntToDecimal(n) + junk) == Num(n)
  {
    var m: nat := if n < 0 then -n else n;
    DigitsValueOfDecimal(m);
    if n < 0 {
      ParseIntOfNegativeDigits(NatToDecimal(m), junk);
      assert IntToDecimal(n) + junk == "-" + (NatToDecimal(m) + junk);
    } else {
      ParseIntOfDigits(NatToDecimal(m), junk);
    }
  }

}

=== FILE: lifecycle.dfy ===
/**
 * Properties of the player component over several transitions: the
 * skip rule, the order of bridge calls, teardown, and what a change of
 * props does to a player that is already running.
 */
module Lifecycle {

  import opened Options
  import Resources
  import opened Player

  /** A `loadplayer` event changes nothing exactly when its id is the stored one and the initialized flag is set, by any player's `next`. */
  lemma SkipRule(w: World, id: PlayerId)
    requires Inv(w) && w.mounted.Some? && id in w.registry
    ensures Step(w, LoadPlayer(id)) == w <==> (w.playerId == Some(id) && w.initialized)
    ensures !(w.playerId == Some(id) && w.initialized) ==>
      var r := Step(w, LoadPlayer(id));
      && |r.trace| == |w.trace| + 4
      && r.trace[|w.trace|].SetToken? && r.trace[|w.trace| + 1].SetConfig?
      && r.trace[|w.trace| + 2].Subscribe? && r.trace[|w.trace| + 3] == Init(id)
  {
  }

  /** A freshly made subscription is live: nothing in the trace has unsubscribed it. */
  lemma FreshSubscriptionLive(w: World, id: PlayerId)
    requires Inv(w) && w.mounted.Some? && id in w.registry
    requires !Skips(w, id)
    ensures var r := Step(w, LoadPlayer(id));
      r.subscription.Some? && Live(r.trace, r.subscription.value)
  {
    var r := HandleLoadPlayer(w, w.mounted.value, id);
    assert Step(w, LoadPlayer(id)) == r;
    var n := |w.trace|;
    var b := r.trace[n..];
    assert r.trace == w.trace + b;
    assert ConfigureBlock(b);
    AppendedSubscriptionLive(w.trace, b);
  }

  /** The subscription of a configure block appended to a well-named trace is live. */
  lemma AppendedSubscriptionLive(t: seq<BridgeCall>, b: seq<BridgeCall>)
    requires SubscriptionsNamed(t) && ConfigureBlock(b)
    ensures Live(t + b, |t| + 2)
  {
    var u := t + b;
    forall i | 0 <= i < |u|
      ensures u[i] != Unsubscribe(|t| + 2)
    {
      if i < |t| {
        assert u[i] == t[i];
      } else {
        assert u[i] == b[i - |t|];
      }
    }
  }

  /**
   * No duplicate initialization: once the player for `id` has been set
   * up and its subscription has signalled `next`, a second `loadplayer`
   * for the same id makes no bridge call at all.
   */
  lemma NoDuplicateInit(w: World, id: PlayerId)
    requires Inv(w) && w.mounted.Some? && id in w.registry
    requires !Skips(w, id)
    ensures var w1 := Step(w, LoadPlayer(id));
      var w2 := Step(w1, Next(w1.subscription.value));
      && w2.initialized
      && Step(w2, LoadPlayer(id)) == w2
      && w2.trace == w1.trace
  {
    FreshSubscriptionLive(w, id);
  }

  /**
   * The initialized flag is one ref shared by every player: once any
   * player's `next` has set it, a new id is configured once, and a
   * repeated event for that id is skipped although its own `next` never
   * fired.
   */
  lemma SharedInitializedFlag(w: World, id: PlayerId)
    requires Inv(w) && w.mounted.Some? && id in w.registry
    requires w.initialized && w.playerId != Some(id)
    ensures var w1 := Step(w, LoadPlayer(id));
      && |w1.trace| == |w.trace| + 4 && w1.trace[|w.trace| + 3] == Init(id)
      && Step(w1, LoadPlayer(id)) == w1
  {
  }

  /** The initialized flag is set only by a `next`, and nothing ever clears it. */
  lemma InitializedOnlyOnNext(w: World, e: Event)
    requires ValidEvent(w, e)
    ensures w.initialized ==> Step(w, e).initialized
    ensures !w.initialized && Step(w, e).initialized ==> e.Next?
  {
  }

  /** A subscription error leaves the component as it was. */
  lemma ErrorIsInert(w: World, s: nat)
    ensures Step(w, Error(s)) == w
  {
  }

  /**
   * A change of props while mounted is a full remount: the old mount is
   * torn down (one unsubscribe when a subscription is stored) and a new
   * element with a listener over the new props replaces it. The refs
   * survive.
   */
  lemma PropsChangeRemounts(w: World, p: Props)
    requires Inv(w) && w.mounted.Some? && p != w.props
    ensures var r := Step(w, Rerender(p));
      && r.container == [PlayerElement(true)]
      && r.mounted == Some(p)
      && r.trace == w.trace + (if w.subscription.Some? then [Unsubscribe(w.subscription.value)] else [])
      && r.playerId == w.playerId && r.initialized == w.initialized && r.subscription == w.subscription
  {
  }

  /**
   * There is no reconfiguration in place: when a running player's props
   * change and the new element announces the same id, the handler skips,
   * so the new token and asset never reach the bridge.
   */
  lemma NewPropsNotDeliveredOnSameId(w: World, p: Props, id: PlayerId)
    requires Inv(w) && w.mounted.Some? && p != w.props && id in w.registry
    requires w.playerId == Some(id) && w.initialized
    ensures var r := Step(Step(w, Rerender(p)), LoadPlayer(id));
      && r.mounted == Some(p)
      && r.trace == w.trace + (if w.subscription.Some? then [Unsubscribe(w.subscription.value)] else [])
      && forall i :: |w.trace| <= i < |r.trace| ==> !r.trace[i].SetToken? && !r.trace[i].SetConfig?
  {
  }

  /**
   * The stored subscription outlives cleanup: two changes of props with
   * no handled `loadplayer` in between unsubscribe the same subscription
   * twice.
   */
  lemma RepeatedCleanupUnsubscribesAgain(w: World, p1: Props, p2: Props)
    requires Inv(w) && w.mounted.Some? && w.subscription.Some?
    requires p1 != w.props && p2 != p1
    ensures var r := Step(Step(w, Rerender(p1)), Rerender(p2));
      var s := w.subscription.value;
      r.trace == w.trace + [Unsubscribe(s), Unsubscribe(s)]
  {
    var w1 := Step(w, Rerender(p1));
    StepPreservesInv(w, Rerender(p1));
    assert w1.trace + [Unsubscribe(w.subscription.value)] == w.trace + [Unsubscribe(w.subscription.value), Unsubscribe(w.subscription.value)];
  }

  /** Without the resources there is no mount, whatever is rendered afterwards. */
  lemma NoMountWithoutResources(w: World, e: Event)
    requires Inv(w) && !w.resourcesLoaded && ValidEvent(w, e) && !e.Activate?
    ensures var r := Step(w, e);
      r.mounted.None? && r.container == [] && !r.resourcesLoaded
  {
  }

  /** A rejected stylesheet ends activation: no script is requested and nothing is mounted. */
  lemma StyleFailureStopsActivation(w: World, reachable: set<string>)
    requires Inv(w) && !w.loadStarted
    requires !Resources.HasLink(w.head, Resources.StylesUrl) && Resources.StylesUrl !in reachable
    ensures Resources.LoadResources(w.head, reachable).requested == [Resources.Stylesheet(Resources.StylesUrl)]
    ensures var r := Step(w, Activate(reachable));
      r.mounted.None? && r.container == [] && !r.resourcesLoaded && r.trace == w.trace
  {
  }

  predicate InitsClosed(t: seq<BridgeCall>) {
    forall i :: 0 <= i < |t| && t[i].Init? ==> 3 <= i && ConfigureBlock(t[i - 3..i + 1])
  }

  lemma InitsClosedExtend(u: seq<BridgeCall>, b: seq<BridgeCall>)
    requires InitsClosed(u)
    requires (|b| == 1 && b[0].Unsubscribe?) || ConfigureBlock(b)
    ensures InitsClosed(u + b)
  {
    var t := u + b;
    forall i | 0 <= i < |t| && t[i].Init?
      ensures 3 <= i && ConfigureBlock(t[i - 3..i + 1])
    {
      if i < |u| {
        assert t[i] == u[i];
        assert t[i - 3..i + 1] == u[i - 3..i + 1];
      } else {
        assert t[i] == b[i - |u|];
        assert i - |u| == 3;
        assert t[i - 3..i + 1] == b;
      }
    }
  }

  /** In a trace built of blocks, every init closes a full configure block. */
  lemma {:induction false} InitClosesBlock(t: seq<BridgeCall>)
    requires Blocks(t)
    ensures InitsClosed(t)
    decreases |t|
  {
    if |t| > 0 {
      var k := if t[|t| - 1].Unsubscribe? then 1 else 4;
      var u := t[..|t| - k];
      InitClosesBlock(u);
      assert u + t[|t| - k..] == t;
      InitsClosedExtend(u, t[|t| - k..]);
    }
  }

  predicate TokensOpen(t: seq<BridgeCall>) {
    forall i :: 0 <= i < |t| && t[i].SetToken? ==> i + 4 <= |t| && ConfigureBlock(t[i..i + 4])
  }

  lemma TokensOpenExtend(u: seq<BridgeCall>, b: seq<BridgeCall>)
    requires TokensOpen(u)
    requires (|b| == 1 && b[0].Unsubscribe?) || ConfigureBlock(b)
    ensures TokensOpen(u + b)
  {
    var t := u + b;
    forall i | 0 <= i < |t| && t[i].SetToken?
      ensures i + 4 <= |t| && ConfigureBlock(t[i..i + 4])
    {
      if i < |u| {
        assert t[i] == u[i];
        assert t[i..i + 4] == u[i..i + 4];
      } else {
        assert t[i] == b[i - |u|];
        assert i == |u|;
        assert t[i..i + 4] == b;
      }
    }
  }

  /** In a trace built of blocks, every token-set opens a full configure block. */
  lemma {:induction false} TokenOpensBlock(t: seq<BridgeCall>)
    requires Blocks(t)
    ensures TokensOpen(t)
    decreases |t|
  {
    if |t| > 0 {
      var k := if t[|t| - 1].Unsubscribe? then 1 else 4;
      var u := t[..|t| - k];
      TokenOpensBlock(u);
      assert u + t[|t| - k..] == t;
      TokensOpenExtend(u, t[|t| - k..]);
    }
  }

  /**
   * The fixed call order, in every reachable world: token-set,
   * config-set, subscribe and init always come as one run of four for
   * one player, never split and never reordered.
   */
  lemma CallOrder(w: World)
    requires Inv(w)
    ensures InitsClosed(w.trace)
    ensures TokensOpen(w.trace)
  {
    InitClosesBlock(w.trace);
    TokenOpensBlock(w.trace);
  }

  const Reachable: set<string> :=
    {Resources.StylesUrl, Resources.ResizePlayerUrl, Resources.PlayerScriptUrl}

  /**
   * The whole happy path: resources load, one listening element is
   * mounted, `loadplayer` with "P1" makes the four calls in order,
   * `next` marks the player initialized, and a repeat of "P1" is ignored.
   */
  lemma HappyPath(p: Props)
    ensures var w0 := Start("production", {"P1"}, [], true, p);
      var w1 := Step(w0, Activate(Reachable));
      var w2 := Step(w1, LoadPlayer("P1"));
      var w3 := Step(w2, Next(2));
      && w1.resourcesLoaded && w1.container == [PlayerElement(true)]
      && w2.trace == [
           SetToken("P1", TokenPayload(p.accessToken, p.expiryTime, p.expiresIn)),
           SetConfig("P1", ConfigPayload("P1", p.asset, PlayerFrame, RemoteBaseUrl, "", 10000000000)),
           Subscribe("P1", 2),
           Init("P1")]
      && w3.initialized
      && Step(w3, LoadPlayer("P1")) == w3
  {
    var w1 := Step(Start("production", {"P1"}, [], true, p), Activate(Reachable));
    HappyActivation(p);
    var w2 := Step(w1, LoadPlayer("P1"));
    assert w2 == HandleLoadPlayer(w1, p, "P1");
    assert w2.trace[1] == SetConfig("P1", ConfigPayload("P1", p.asset, PlayerFrame, RemoteBaseUrl, "", 10000000000));
    assert Unsubscribe(2) !in w2.trace;
  }

  /** The first step of the happy path: all three resources load and the element mounts. */
  lemma HappyActivation(p: Props)
    ensures var w1 := Step(Start("production", {"P1"}, [], true, p), Activate(Reachable));
      && w1.resourcesLoaded && w1.mounted == Some(p) && w1.container == [PlayerElement(true)]
      && w1.playerId.None? && !w1.initialized && w1.trace == []
      && w1.registry == {"P1"} && w1.environment == "production"
  {
    var run := Resources.LoadResources([], Reachable);
    assert run.allLoaded;
  }

}

=== FILE: options.dfy ===
/** The optional value used wherever the source has `null`/`undefined` or a lookup that can fail. */
module Options {

  datatype Option<+T> = None | Some(value: T)

}

=== FILE: player.dfy ===
/**
 * The player component as a state machine over plain data: the document
 * head, the container's children, the two refs (stored player id and
 * "initialized" flag), the stored subscription, and a trace of every
 * call made into the foreign widget's bridge.
 *
 * Effects are explicit transitions. A change of any prop rebuilds the
 * `loadplayer` handler, which re-runs the mount effect: cleanup of the
 * previous mount, then a fresh mount.
 */
module Player {

  import opened Options
  import opened JsNumbers
  import opened Entities
  import Resources

  type PlayerId = string

  /** The component's props; the `loadplayer` handler closes over all four. */
  datatype Props = Props(accessToken: string, expiryTime: JsNum, expiresIn: int, asset: Option<Asset>)

  /** The token-set payload, field names as the widget expects them. */
  datatype TokenPayload = TokenPayload(
    accessToken: string,
    accessTokenExpiryTime: JsNum,
    accessTokenGenTime: int)

  datatype IFrameCss = IFrameCss(
    position: string, top: string, left: string,
    width: string, height: string,
    overflowX: string, overflowY: string)

  const PlayerFrame := IFrameCss("absolute", "0px", "0px", "993px", "610px", "hidden", "hidden")

  /** The config-set payload. */
  datatype ConfigPayload = ConfigPayload(
    tcePlayerId: PlayerId,
    resourceData: Option<Asset>,
    iFrameCss: IFrameCss,
    baseUrl: string,
    gateway: string,
    minEraserArea: int)

  const RemoteBaseUrl := "https://ce-dev-azvasa.devstudi.com"
  const MinEraserAreaOverride := 10000000000

  /** One call into the widget's bridge; subscriptions are named by the trace position of their `Subscribe`. */
  datatype BridgeCall =
    | SetToken(player: PlayerId, token: TokenPayload)
    | SetConfig(player: PlayerId, config: ConfigPayload)
    | Subscribe(player: PlayerId, sub: nat)
    | Init(player: PlayerId)
    | Unsubscribe(sub: nat)

  datatype Element = PlayerElement(listening: bool) | OtherElement(tag: string)

  /**
   * `mounted` is the mount effect that is currently in force, if any:
   * its element carries a `loadplayer` handler over those props.
   * `registry` holds the player ids the widget runtime has an entry for.
   */
  datatype World = World(
    environment: string,
    registry: set<PlayerId>,
    head: Resources.Head,
    loadStarted: bool,
    resourcesLoaded: bool,
    hasContainer: bool,
    container: seq<Element>,
    props: Props,
    mounted: Option<Props>,
    playerId: Option<PlayerId>,
    initialized: bool,
    subscription: Option<nat>,
    trace: seq<BridgeCall>)

  /** The component right after its first render, before any effect has completed. */
  function Start(environment: string, registry: set<PlayerId>, head: Resources.Head, hasContainer: bool, props: Props): World {
    World(environment, registry, head, false, false, hasContainer, [], props, None, None, false, None, [])
  }

  /** The config payload as first written, before the override. */
  function BaseConfig(id: PlayerId, p: Props, environment: string): (c: ConfigPayload)
    ensures c.tcePlayerId == id && c.resourceData == p.asset && c.iFrameCss == PlayerFrame
    ensures c.gateway == "" && c.minEraserArea == 50
    ensures c.baseUrl == "" <==> environment == "development"
    ensures environment != "development" ==> c.baseUrl == RemoteBaseUrl
  {
    ConfigPayload(id, p.asset, PlayerFrame,
      if environment == "development" then "" else RemoteBaseUrl, "", 50)
  }

  /** `{...configData.detail, minEraserArea: 10000000000}`: the later field wins. */
  function ConfigFor(id: PlayerId, p: Props, environment: string): (c: ConfigPayload)
    ensures c.minEraserArea == 10000000000
    ensures c.(minEraserArea := 50) == BaseConfig(id, p, environment)
  {
    BaseConfig(id, p, environment).(minEraserArea := MinEraserAreaOverride)
  }

  /** The handler skips when the id is the stored one and the initialized flag is set, by any player's `next`. */
  predicate Skips(w: World, id: PlayerId) {
    w.playerId == Some(id) && w.initialized
  }

  /**
   * The `loadplayer` handler over props `p`. Unless it skips, it stores
   * the id, then (first zone run) sets the token and the config, then
   * (second zone run) subscribes, stores the subscription and calls init.
   */
  function HandleLoadPlayer(w: World, p: Props, id: PlayerId): (r: World)
    requires id in w.registry
    ensures Skips(w, id) <==> r == w
    ensures !Skips(w, id) ==>
      var n := |w.trace|;
      && r.playerId == Some(id)
      && |r.trace| == n + 4 && r.trace[..n] == w.trace
      && r.trace[n] == SetToken(id, TokenPayload(p.accessToken, p.expiryTime, p.expiresIn))
      && r.trace[n + 1] == SetConfig(id, ConfigFor(id, p, w.environment))
      && r.trace[n + 1].SetConfig? && r.trace[n + 1].player == id
      && r.trace[n + 1].config.tcePlayerId == id
      && r.trace[n + 1].config.resourceData == p.asset
      && r.trace[n + 1].config.minEraserArea == 10000000000
      && r.trace[n + 1].config.baseUrl == (if w.environment == "development" then "" else "https://ce-dev-azvasa.devstudi.com")
      && r.trace[n + 2] == Subscribe(id, n + 2)
      && r.trace[n + 3] == Init(id)
      && r.subscription == Some(n + 2)
      && r.initialized == w.initialized
      && r.(playerId := w.playerId, subscription := w.subscription, trace := w.trace) == w
  {
    if Skips(w, id) then w
    else
      var n := |w.trace|;
      var configure := [SetToken(id, TokenPayload(p.accessToken, p.expiryTime, p.expiresIn)),
                        SetConfig(id, ConfigFor(id, p, w.environment))];
      var initialize := [Subscribe(id, n + 2), Init(id)];
      w.(playerId := Some(id), subscription := Some(n + 2), trace := w.trace + configure + initialize)
  }

  /** A subscription is live while it has been made and not yet unsubscribed. */
  predicate Live(trace: seq<BridgeCall>, s: nat) {
    s < |trace| && trace[s].Subscribe? && Unsubscribe(s) !in trace
  }

  /** The subscription's `next`: the only place the initialized flag is set. */
  function OnNext(w: World): (r: World)
    ensures r.initialized
    ensures r.(initialized := w.initialized) == w
  {
    w.(initialized := true)
  }

  /** The mount effect. It needs the previous mount's cleanup to have run. */
  function Mount(w: World): (r: World)
    requires w.mounted.None?
    ensures !w.resourcesLoaded || !w.hasContainer ==> r == w
    ensures w.resourcesLoaded && w.hasContainer ==>
      && r.container == [PlayerElement(true)]
      && r.mounted == Some(w.props)
      && r.(container := w.container, mounted := w.mounted) == w
  {
    if !w.resourcesLoaded || !w.hasContainer then w
    else w.(container := [PlayerElement(true)], mounted := Some(w.props))
  }

  /**
   * The mount effect's cleanup: detach the listener, empty the container,
   * unsubscribe the stored subscription if there is one. The refs and the
   * stored subscription are left as they are.
   */
  function Cleanup(w: World): (r: World)
    ensures w.mounted.None? ==> r == w
    ensures w.mounted.Some? ==>
      && r.container == [] && r.mounted.None?
      && r.trace == w.trace + (if w.subscription.Some? then [Unsubscribe(w.subscription.value)] else [])
      && r.playerId == w.playerId && r.initialized == w.initialized && r.subscription == w.subscription
      && r.(container := w.container, mounted := w.mounted, trace := w.trace) == w
  {
    if w.mounted.None? then w
    else
      var unsubscribe := if w.subscription.Some? then [Unsubscribe(w.subscription.value)] else [];
      w.(container := [], mounted := None, trace := w.trace + unsubscribe)
  }

  /** An effect whose dependencies changed: the previous cleanup, then the effect again. */
  function Remount(w: World): (r: World)
    ensures r.mounted.Some? <==> w.resourcesLoaded && w.hasContainer
    ensures r.mounted.Some? ==> r.mounted.value == w.props && r.container == [PlayerElement(true)]
    ensures r.trace == w.trace + (if w.mounted.Some? && w.subscription.Some? then [Unsubscribe(w.subscription.value)] else [])
    ensures r.playerId == w.playerId && r.initialized == w.initialized && r.subscription == w.subscription
    ensures r.head == w.head && r.props == w.props
    ensures r.registry == w.registry && r.environment == w.environment
  {
    Mount(Cleanup(w))
  }

  datatype Event =
    | Activate(reachable: set<string>)
    | Rerender(props: Props)
    | LoadPlayer(id: PlayerId)
    | Next(sub: nat)
    | Error(sub: nat)

  /** What the environment can deliver: one activation, and ids the widget has registered. */
  predicate ValidEvent(w: World, e: Event) {
    match e
    case Activate(_) => !w.loadStarted
    case LoadPlayer(id) => id in w.registry
    case _ => true
  }

  /**
   * One transition. A `loadplayer` event reaches a handler only while a
   * mount is in force; a callback reaches the component only from a
   * live subscription.
   */
  function Step(w: World, e: Event): (r: World)
    requires ValidEvent(w, e)
    ensures |w.trace| <= |r.trace| && r.trace[..|w.trace|] == w.trace
    ensures |w.head| <= |r.head| && r.head[..|w.head|] == w.head
    ensures w.initialized ==> r.initialized
    ensures w.playerId.Some? ==> r.playerId.Some?
    ensures r.registry == w.registry && r.environment == w.environment
  {
    match e
    case Activate(reachable) =>
      var run := Resources.LoadResources(w.head, reachable);
      var w1 := w.(head := run.head, loadStarted := true, resourcesLoaded := run.allLoaded);
      if run.allLoaded then Remount(w1) else w1
    case Rerender(p) =>
      if p == w.props then w else Remount(w.(props := p))
    case LoadPlayer(id) =>
      if w.mounted.Some? then HandleLoadPlayer(w, w.mounted.value, id) else w
    case Next(s) =>
      if Live(w.trace, s) then OnNext(w) else w
    case Error(_) =>
      w
  }

  /** A run of four calls: token, config, subscribe, init, all for one player. */
  predicate ConfigureBlock(b: seq<BridgeCall>) {
    && |b| == 4
    && b[0].SetToken? && b[1].SetConfig? && b[2].Subscribe? && b[3].Init?
    && b[1].player == b[0].player && b[2].player == b[0].player && b[3].player == b[0].player
  }

  /** The trace is a succession of configure blocks and single unsubscribes. */
  predicate Blocks(t: seq<BridgeCall>)
    decreases |t|
  {
    if |t| == 0 then true
    else if t[|t| - 1].Unsubscribe? then Blocks(t[..|t| - 1])
    else |t| >= 4 && ConfigureBlock(t[|t| - 4..]) && Blocks(t[..|t| - 4])
  }

  /** Every subscription is named by its own position; every unsubscribe names an earlier subscribe. */
  predicate SubscriptionsNamed(t: seq<BridgeCall>) {
    && (forall i :: 0 <= i < |t| && t[i].Subscribe? ==> t[i].sub == i)
    && (forall i :: 0 <= i < |t| && t[i].Unsubscribe? ==> t[i].sub < i && t[t[i].sub].Subscribe?)
  }

  /** What holds in every reachable world. */
  predicate Inv(w: World) {
    && Resources.UniqueUrls(w.head)
    && (w.resourcesLoaded ==> w.loadStarted)
    && (w.mounted.Some? ==>
         && w.resourcesLoaded && w.hasContainer
         && w.container == [PlayerElement(true)]
         && w.mounted.value == w.props)
    && (w.mounted.None? ==> w.container == [])
    && (w.resourcesLoaded && w.hasContainer ==> w.mounted.Some?)
    && TraceInv(w)
  }

  /** The part of the invariant about refs, the stored subscription and the trace. */
  predicate TraceInv(w: World) {
    && (w.initialized ==> w.playerId.Some?)
    && (|w.trace| > 0 ==> w.playerId.Some?)
    && (w.subscription.Some? ==>
         && w.playerId.Some?
         && w.subscription.value < |w.trace|
         && w.trace[w.subscription.value] == Subscribe(w.playerId.value, w.subscription.value))
    && Blocks(w.trace)
    && SubscriptionsNamed(w.trace)
  }

  lemma StartSatisfiesInv(environment: string, registry: set<PlayerId>, head: Resources.Head, hasContainer: bool, props: Props)
    requires Resources.UniqueUrls(head)
    ensures Inv(Start(environment, registry, head, hasContainer, props))
  {
  }

  lemma BlocksAppendConfigure(t: seq<BridgeCall>, b: seq<BridgeCall>)
    requires Blocks(t) && ConfigureBlock(b)
    ensures Blocks(t + b)
  {
    var u := t + b;
    assert u[|u| - 4..] == b;
    assert u[..|u| - 4] == t;
  }

  lemma BlocksAppendUnsubscribe(t: seq<BridgeCall>, s: nat)
    requires Blocks(t)
    ensures Blocks(t + [Unsubscribe(s)])
  {
    assert (t + [Unsubscribe(s)])[..|t|] == t;
  }

  lemma SubscriptionsNamedAppend(t: seq<BridgeCall>, b: seq<BridgeCall>)
    requires SubscriptionsNamed(t)
    requires forall i :: 0 <= i < |b| && b[i].Subscribe? ==> b[i].sub == |t| + i
    requires forall i :: 0 <= i < |b| && b[i].Unsubscribe? ==> b[i].sub < |t| && t[b[i].sub].Subscribe?
    ensures SubscriptionsNamed(t + b)
  {
    var u := t + b;
    assert forall i :: 0 <= i < |t| ==> u[i] == t[i];
    assert forall i :: |t| <= i < |u| ==> u[i] == b[i - |t|];
  }

  /** Appending a configure block and storing its subscription keeps the trace invariant. */
  lemma ConfigureKeepsTraceInv(w: World, id: PlayerId, b: seq<BridgeCall>)
    requires TraceInv(w) && ConfigureBlock(b)
    requires b[2] == Subscribe(id, |w.trace| + 2)
    ensures TraceInv(w.(playerId := Some(id), subscription := Some(|w.trace| + 2), trace := w.trace + b))
  {
    BlocksAppendConfigure(w.trace, b);
    assert forall i :: 0 <= i < |b| && b[i].Subscribe? ==> i == 2;
    assert forall i :: 0 <= i < |b| ==> !b[i].Unsubscribe?;
    SubscriptionsNamedAppend(w.trace, b);
    assert (w.trace + b)[|w.trace| + 2] == b[2];
  }

  lemma HandlePreservesInv(w: World, p: Props, id: PlayerId)
    requires TraceInv(w) && id in w.registry
    ensures TraceInv(HandleLoadPlayer(w, p, id))
  {
    if !Skips(w, id) {
      var n := |w.trace|;
      var b := [SetToken(id, TokenPayload(p.accessToken, p.expiryTime, p.expiresIn)),
                SetConfig(id, ConfigFor(id, p, w.environment)),
                Subscribe(id, n + 2), Init(id)];
      assert HandleLoadPlayer(w, p, id) == w.(playerId := Some(id), subscription := Some(n + 2), trace := w.trace + b);
      ConfigureKeepsTraceInv(w, id, b);
    }
  }

  lemma CleanupPreservesInv(w: World)
    requires TraceInv(w)
    ensures TraceInv(Cleanup(w))
  {
    var r := Cleanup(w);
    if w.mounted.Some? {
      if w.subscription.Some? {
        var s := w.subscription.value;
        assert r.trace == w.trace + [Unsubscribe(s)];
        BlocksAppendUnsubscribe(w.trace, s);
        SubscriptionsNamedAppend(w.trace, [Unsubscribe(s)]);
      } else {
        assert r.trace == w.trace;
      }
    }
  }

  /** Every transition keeps the invariant. */
  lemma StepPreservesInv(w: World, e: Event)
    requires Inv(w) && ValidEvent(w, e)
    ensures Inv(Step(w, e))
  {
    match e
    case Activate(reachable) =>
      var run := Resources.LoadResources(w.head, reachable);
      var w1 := w.(head := run.head, loadStarted := true, resourcesLoaded := run.allLoaded);
      if run.allLoaded {
        CleanupPreservesInv(w1);
      }
    case Rerender(p) =>
      if p != w.props {
        CleanupPreservesInv(w.(props := p));
      }
    case LoadPlayer(id) =>
      if w.mounted.Some? {
        HandlePreservesInv(w, w.mounted.value, id);
      }
    case Next(s) =>
    case Error(_) =>
  }

}

=== FILE: resources.dfy ===
/**
 * The resource loader of the player component: `loadScript` and
 * `loadStyle` insert a node into the document head unless one with the
 * same URL is already there, and the loading effect requests the
 * stylesheet and the two scripts strictly one after another.
 *
 * The network outcome of a node's load is an input: a request for a URL
 * in `reachable` loads, any other fails.
 */
module Resources {

  datatype LoadState = Pending | Loaded | Failed

  datatype HeadNode =
    | ScriptNode(src: string, state: LoadState)
    | LinkNode(href: string, rel: string, state: LoadState)
    | OtherNode(tag: string)

  type Head = seq<HeadNode>

  /** `document.querySelector('script[src="…"]')` finds a node. */
  predicate HasScript(head: Head, src: string) {
    exists i :: 0 <= i < |head| && head[i].ScriptNode? && head[i].src == src
  }

  /** `document.querySelector('link[href="…"]')` finds a node, whatever its `rel`. */
  predicate HasLink(head: Head, href: string) {
    exists i :: 0 <= i < |head| && head[i].LinkNode? && head[i].href == href
  }

  /** The promise of a load request once it has settled. */
  datatype Settled = Resolved | Rejected

  function Outcome(ok: bool): LoadState {
    if ok then Loaded else Failed
  }

  /**
   * `loadScript(src)`: resolves at once when a script with that `src`
   * is present, in whatever load state; otherwise appends exactly one
   * script node and settles with its load.
   */
  function LoadScript(head: Head, src: string, ok: bool): (r: (Head, Settled))
    ensures HasScript(head, src) ==> r == (head, Resolved)
    ensures !HasScript(head, src) ==>
      && r.0 == head + [ScriptNode(src, Outcome(ok))]
      && (r.1 == Resolved <==> ok)
    ensures HasScript(r.0, src)
  {
    if HasScript(head, src) then (head, Resolved)
    else
      var node := ScriptNode(src, Outcome(ok));
      assert (head + [node])[|head|] == node;
      (head + [node], if ok then Resolved else Rejected)
  }

  /**
   * `loadStyle(href)`: the same rule keyed by `link[href]`; the node it
   * appends is a `stylesheet` link.
   */
  function LoadStyle(head: Head, href: string, ok: bool): (r: (Head, Settled))
    ensures HasLink(head, href) ==> r == (head, Resolved)
    ensures !HasLink(head, href) ==>
      && r.0 == head + [LinkNode(href, "stylesheet", Outcome(ok))]
      && (r.1 == Resolved <==> ok)
    ensures HasLink(r.0, href)
  {
    if HasLink(head, href) then (head, Resolved)
    else
      var node := LinkNode(href, "stylesheet", Outcome(ok));
      assert (head + [node])[|head|] == node;
      (head + [node], if ok then Resolved else Rejected)
  }

  /** No two script nodes share a `src` and no two link nodes share an `href`. */
  predicate UniqueUrls(head: Head) {
    && (forall i, j :: 0 <= i < j < |head| && head[i].ScriptNode? && head[j].ScriptNode? ==> head[i].src != head[j].src)
    && (forall i, j :: 0 <= i < j < |head| && head[i].LinkNode? && head[j].LinkNode? ==> head[i].href != head[j].href)
  }

  /** Requesting a script never creates a second node for a URL. */
  lemma LoadScriptKeepsUnique(head: Head, src: string, ok: bool)
    requires UniqueUrls(head)
    ensures UniqueUrls(LoadScript(head, src, ok).0)
  {
    if !HasScript(head, src) {
      var h := LoadScript(head, src, ok).0;
      assert forall i :: 0 <= i < |head| ==> h[i] == head[i];
      forall i | 0 <= i < |head| && h[i].ScriptNode?
        ensures h[i].src != src
      {
        assert head[i].ScriptNode?;
      }
    }
  }

  /** Requesting a stylesheet never creates a second node for a URL. */
  lemma LoadStyleKeepsUnique(head: Head, href: string, ok: bool)
    requires UniqueUrls(head)
    ensures UniqueUrls(LoadStyle(head, href, ok).0)
  {
    if !HasLink(head, href) {
      var h := LoadStyle(head, href, ok).0;
      assert forall i :: 0 <= i < |head| ==> h[i] == head[i];
      forall i | 0 <= i < |head| && h[i].LinkNode?
        ensures h[i].href != href
      {
        assert head[i].LinkNode?;
      }
    }
  }

  /**
   * A second request for a URL resolves without touching the head,
   * even when the first one failed: the failed node stays and is found.
   */
  lemma RepeatedScriptRequestResolves(head: Head, src: string, first: bool, second: bool)
    ensures var h := LoadScript(head, src, first).0;
      LoadScript(h, src, second) == (h, Resolved)
  {
  }

  datatype Resource = Stylesheet(url: string) | Script(url: string)

  const StylesUrl := "/tceplayer-two/styles.css"
  const ResizePlayerUrl := "/tceplayer-two/assets/tcemedia/external/player-html/player/js/shell/common/resizePlayer.js"
  const PlayerScriptUrl := "/tceplayer-two/tce-player-hybrid.js"

  /** The player's resources in the order the loading effect awaits them. */
  const PlayerResources: seq<Resource> :=
    [Stylesheet(StylesUrl), Script(ResizePlayerUrl), Script(PlayerScriptUrl)]

  predicate Present(head: Head, r: Resource) {
    match r
    case Stylesheet(u) => HasLink(head, u)
    case Script(u) => HasScript(head, u)
  }

  /** A request settles successfully: the node was already there, or its load succeeds. */
  predicate Succeeds(head: Head, r: Resource, reachable: set<string>) {
    Present(head, r) || r.url in reachable
  }

  function Request(head: Head, r: Resource, reachable: set<string>): (res: (Head, Settled))
    ensures res.1 == Resolved <==> Succeeds(head, r, reachable)
    ensures Present(res.0, r)
    ensures res.0 == head || res.0 == head + [NodeFor(r, Outcome(r.url in reachable))]
  {
    match r
    case Stylesheet(u) => LoadStyle(head, u, u in reachable)
    case Script(u) => LoadScript(head, u, u in reachable)
  }

  function NodeFor(r: Resource, state: LoadState): HeadNode {
    match r
    case Stylesheet(u) => LinkNode(u, "stylesheet", state)
    case Script(u) => ScriptNode(u, state)
  }

  predicate Distinct(rs: seq<Resource>) {
    forall i, j :: 0 <= i < j < |rs| ==> rs[i] != rs[j]
  }

  /** Appending the node of one resource does not make another one present. */
  lemma PresentAfterAppend(head: Head, r: Resource, s: Resource, state: LoadState)
    requires r != s
    ensures Present(head + [NodeFor(r, state)], s) <==> Present(head, s)
  {
    var h := head + [NodeFor(r, state)];
    assert forall i :: 0 <= i < |head| ==> h[i] == head[i];
    if Present(h, s) {
      match s
      case Stylesheet(u) =>
        var i :| 0 <= i < |h| && h[i].LinkNode? && h[i].href == u;
        assert i < |head|;
      case Script(u) =>
        var i :| 0 <= i < |h| && h[i].ScriptNode? && h[i].src == u;
        assert i < |head|;
    }
  }

  /** The result of running a sequence of awaited requests. */
  datatype LoadRun = LoadRun(head: Head, requested: seq<Resource>, allLoaded: bool)

  /** Once the first request has run, the later resources succeed exactly as they would have before it. */
  lemma LaterRequestsUnaffected(head: Head, rs: seq<Resource>, reachable: set<string>)
    requires Distinct(rs) && |rs| > 0
    ensures Distinct(rs[1..])
    ensures var h1 := Request(head, rs[0], reachable).0;
      forall k :: 1 <= k < |rs| ==> (Succeeds(h1, rs[k], reachable) <==> Succeeds(head, rs[k], reachable))
  {
    var h1 := Request(head, rs[0], reachable).0;
    forall k | 1 <= k < |rs|
      ensures Present(h1, rs[k]) <==> Present(head, rs[k])
    {
      if h1 != head {
        PresentAfterAppend(head, rs[0], rs[k], Outcome(rs[0].url in reachable));
      }
    }
  }

  /**
   * Requests `rs` one after another, each awaited; the first rejection
   * ends the run, so nothing after it is requested.
   */
  function LoadInOrder(head: Head, rs: seq<Resource>, reachable: set<string>): (run: LoadRun)
    requires Distinct(rs)
    ensures |run.requested| <= |rs| && run.requested == rs[..|run.requested|]
    ensures |head| <= |run.head| && run.head[..|head|] == head
    ensures run.allLoaded <==> forall k :: 0 <= k < |rs| ==> Succeeds(head, rs[k], reachable)
    ensures run.allLoaded ==> run.requested == rs
    ensures !run.allLoaded ==>
      && |run.requested| > 0
      && (forall k :: 0 <= k < |run.requested| - 1 ==> Succeeds(head, rs[k], reachable))
      && !Succeeds(head, rs[|run.requested| - 1], reachable)
    decreases |rs|
  {
    if |rs| == 0 then LoadRun(head, [], true)
    else
      var (h1, settled) := Request(head, rs[0], reachable);
      if settled == Rejected then
        LoadRun(h1, [rs[0]], false)
      else
        LaterRequestsUnaffected(head, rs, reachable);
        var rest := LoadInOrder(h1, rs[1..], reachable);
        assert forall k :: 0 <= k < |rest.requested| ==> rs[1..][k] == rs[k + 1];
        LoadRun(rest.head, [rs[0]] + rest.requested, rest.allLoaded)
  }

  /** After a run every requested resource has its node in the head. */
  lemma {:induction false} RequestedArePresent(head: Head, rs: seq<Resource>, reachable: set<string>)
    requires Distinct(rs)
    ensures var run := LoadInOrder(head, rs, reachable);
      forall k :: 0 <= k < |run.requested| ==> Present(run.head, rs[k])
    decreases |rs|
  {
    if |rs| > 0 {
      var (h1, settled) := Request(head, rs[0], reachable);
      if settled == Resolved {
        LaterRequestsUnaffected(head, rs, reachable);
        RequestedArePresent(h1, rs[1..], reachable);
        var rest := LoadInOrder(h1, rs[1..], reachable);
        PresentPersists(h1, rest.head, rs[0]);
        assert forall k :: 1 <= k < |rest.requested| + 1 ==> rs[k] == rs[1..][k - 1];
      }
    }
  }

  /** A node found in a prefix is found in the whole head. */
  lemma PresentPersists(head: Head, longer: Head, r: Resource)
    requires |head| <= |longer| && longer[..|head|] == head
    requires Present(head, r)
    ensures Present(longer, r)
  {
    match r
    case Stylesheet(u) =>
      var i :| 0 <= i < |head| && head[i].LinkNode? && head[i].href == u;
      assert longer[i] == head[i];
    case Script(u) =>
      var i :| 0 <= i < |head| && head[i].ScriptNode? && head[i].src == u;
      assert longer[i] == head[i];
  }

  /** Every node the run appends is unique by URL, so the head stays free of duplicates. */
  lemma {:induction false} LoadInOrderKeepsUnique(head: Head, rs: seq<Resource>, reachable: set<string>)
    requires Distinct(rs)
    requires UniqueUrls(head)
    ensures UniqueUrls(LoadInOrder(head, rs, reachable).head)
    decreases |rs|
  {
    if |rs| > 0 {
      var h1 := Request(head, rs[0], reachable).0;
      match rs[0] {
        case Stylesheet(u) => LoadStyleKeepsUnique(head, u, u in reachable);
        case Script(u) => LoadScriptKeepsUnique(head, u, u in reachable);
      }
      if Request(head, rs[0], reachable).1 == Resolved {
        LaterRequestsUnaffected(head, rs, reachable);
        LoadInOrderKeepsUnique(h1, rs[1..], reachable);
      }
    }
  }

  /**
   * The loading effect: stylesheet, then the resize script, then the
   * player script. The loaded flag is set exactly when all three
   * succeeded; a rejection stops the sequence at that resource.
   */
  function LoadResources(head: Head, reachable: set<string>): (run: LoadRun)
    ensures |run.requested| <= 3 && run.requested == PlayerResources[..|run.requested|]
    ensures run.allLoaded <==>
      && Succeeds(head, Stylesheet(StylesUrl), reachable)
      && Succeeds(head, Script(ResizePlayerUrl), reachable)
      && Succeeds(head, Script(PlayerScriptUrl), reachable)
    ensures run.allLoaded ==> run.requested == PlayerResources
    ensures !Succeeds(head, Stylesheet(StylesUrl), reachable) ==> run.requested == [Stylesheet(StylesUrl)] && !run.allLoaded
    ensures UniqueUrls(head) ==> UniqueUrls(run.head)
    ensures |head| <= |run.head| && run.head[..|head|] == head
  {
    var run := LoadInOrder(head, PlayerResources, reachable);
    assert PlayerResources[0] == Stylesheet(StylesUrl);
    assert PlayerResources[1] == Script(ResizePlayerUrl);
    assert PlayerResources[2] == Script(PlayerScriptUrl);
    assert UniqueUrls(head) ==> UniqueUrls(run.head) by {
      if UniqueUrls(head) {
        LoadInOrderKeepsUnique(head, PlayerResources, reachable);
      }
    }
    run
  }

}
